=== FILE: README.md ===
# adenotifier in Dafny

This project models the client core of adenotifier. adenotifier is a small Python library that registers source data files with the ADE Notify API:

- The `Manifest` handle (`adenotifier/manifest.py`) is a client-side proxy for one manifest resource. It can create the manifest, fetch it, fetch its entries, notify it, and add one entry or a list of entries. Creation is lazy when the handle has no id yet.
- The notifier functions (`adenotifier/notifier.py`) do the rest:
  - `search_manifests` lists the ids of a source entity's manifests in a given state;
  - `parse_batch` derives a batch number from a file url with a regular expression;
  - `add_to_manifest` picks an open manifest or creates one, then adds the file as an entry, and for a single-file manifest notifies;
  - `notify_manifests` fetches and notifies every open manifest of a source.

## How it is modelled

- **The service** is a total function `Api` from the calls already made (the call log) and the next call to the reply. Every deterministic server is such a function.
- **Operations** are pure functions. Each takes the service, the handle and the log, and returns the handle after the operation, the log after it, and an outcome: `Done` or `Raised(error)`.
- **Errors.** Each Python exception the code lets escape has a constructor:
  - `NoManifestId` is the `ValueError` raised when no id is known;
  - `TransportFailed` is an exception of the HTTP session;
  - `MalformedReply` is the error of reading a reply: the decode error of `response.json()` on a body that is not JSON, or the `KeyError`/`TypeError` raised when the document does not hold what the code reads.
- **Calls** are structured: a verb, a target (base url, source system, source entity, resource) and a body. `NotifyApi.Url` renders a target as the url the code formats.
- **The regular expression engine** is a parameter, `Matcher`. It maps a pattern and a text to no match, a bad pattern, or the match's groups.
- **Python string behaviour** lives in module `PyStr`:
  - `str.upper`, limited to ASCII;
  - concatenation of the groups;
  - `int()`, limited to an optional sign followed by ASCII digits;
  - `str.replace`, including Python's behaviour for an empty pattern.
- **A reference server.** Module `ReferenceServer` is an in-memory manifest store driven by the call log, and it is itself an `Api`. It is used to state the create-then-fetch, notify-then-fetch and entry round trips that the documentation promises.

Modules:

| module | file | content |
|---|---|---|
| `Common` | common.dfy | `Option`, `Result` |
| `PyStr` | pystr.dfy | `upper`, join, `int()`/`str()`, `replace` |
| `NotifyApi` | notify_api.dfy | calls, urls, replies, the `Api` type, counting calls in a log |
| `ManifestHandle` | manifest.dfy | the `Manifest` handle and its operations |
| `Notifier` | notifier.dfy | `search_manifests`, `parse_batch`, `add_to_manifest`, `notify_manifests` |
| `NotifierProperties` | notifier_props.dfy | what the two entry points send, in which order |
| `ReferenceServer` | reference_server.dfy | the reference service and the round trips against it |

## Model

| member | source | states |
|---|---|---|
| PyStr.Upper | adenotifier/notifier.py:31 | `state.upper()` has the same length as the state. Each ASCII lower-case letter becomes its capital; every other character is kept. |
| PyStr.UpperIdempotent | adenotifier/notifier.py:31 | Upper-casing twice is upper-casing once. A word with no lower-case letter, such as `"OPEN"`, is sent unchanged. |
| PyStr.ConcatAppend | adenotifier/notifier.py:58-59 | Joining the groups can be split at any point: the join of `a + b` is the join of `a` followed by the join of `b`. |
| PyStr.ConcatLength | adenotifier/notifier.py:58-59 | The length of the joined groups is the sum of the groups' lengths. |
| PyStr.ParseInt | adenotifier/notifier.py:61 | The model's `int(s)` succeeds on an optional sign followed by at least one digit and on nothing else (Python's further leniencies and its digit limit are listed under Left out). The value is the digits' decimal value, negated after a `-`. |
| PyStr.ParseShow | adenotifier/notifier.py:61 | `int(str(i)) == i` for every integer. |
| PyStr.ShowParse | adenotifier/notifier.py:61 | `str(int(s)) == s` for a digit string with no superfluous leading zero. |
| PyStr.DigitsAppend | adenotifier/notifier.py:58-61 | The value of two digit strings joined is the first value shifted left by the second string's width, plus the second value. |
| PyStr.DigitsOfDecimal | adenotifier/notifier.py:61 | Reading back the decimal rendering of `n` gives `n`. |
| PyStr.DecimalOfDigits | adenotifier/notifier.py:61 | Rendering the value of a canonical digit string gives the string back. |
| PyStr.Interleave | adenotifier/notifier.py:119 | `s.replace("", rep)` has length `\|s\| + (\|s\| + 1) * \|rep\|`. |
| PyStr.InterleaveParts | adenotifier/notifier.py:119 | `s.replace("", rep)` is `rep` before each character of `s`, in order, followed by one more `rep`. |
| PyStr.ReplaceBySelf | adenotifier/notifier.py:119 | Replacing a pattern by itself returns the url unchanged. This holds for the empty pattern too. |
| PyStr.ReplaceAbsent | adenotifier/notifier.py:119 | A url that does not contain a non-empty pattern is returned unchanged. |
| PyStr.ReplaceAt | adenotifier/notifier.py:119 | `str.replace` scans left to right and replaces every occurrence: for `x + pat + y` where `pat` first occurs at `\|x\|`, the result is `x + rep` followed by the replacement of `y`. With `ReplaceAbsent` for the rest, every non-overlapping occurrence is replaced and nothing else changes. |
| PyStr.ReplaceLength | adenotifier/notifier.py:119 | With a non-empty pattern, a shorter replacement never lengthens the url and a longer one never shortens it. |
| PyStr.ReplacePresent | adenotifier/notifier.py:119 | A url that contains the pattern comes back changed when the replacement differs from the pattern. |
| PyStr.ReplaceUnchangedIff | adenotifier/notifier.py:119 | `s.replace(pat, rep) == s` if and only if `rep == pat` or `pat` does not occur in `s`. |
| PyStr.ReplacePrefix | adenotifier/notifier.py:119 | A url that starts with the pattern and has no later occurrence gets exactly that prefix replaced. |
| NotifyApi.Url | adenotifier/manifest.py:141-142 | Every request url starts with `{base}/tenants/local/installations/local/environments/local/source-systems/{system}/source-entities/{entity}/manifests`. The bare collection is exactly that url; a state search adds `?state={state}`; an item adds `/{id}`, its entries `/{id}/entries`, its notify `/{id}/notify`. These are the formats at adenotifier/manifest.py:82-83, 101-102, 141-142, 220-221, 239-240 and 264-265 and adenotifier/notifier.py:27-31. |
| NotifyApi.UrlDistinct | adenotifier/manifest.py:141-142 | For one source entity, two different resources (ids without `/`) have different urls, so no two operations' requests can be mistaken for each other. |
| ManifestHandle.New | adenotifier/manifest.py:28-43 | A new handle knows only its endpoint and format. Its id, server fields, optional fields and entry cache are all unset. |
| ManifestHandle.Reload | adenotifier/manifest.py:85-97 | A manifest reply overwrites all eleven reported fields and keeps the endpoint and entry cache. A session failure or a reply without a manifest raises and leaves the handle as it was. |
| ManifestHandle.CreateBody | adenotifier/manifest.py:144-159 | The create body always holds `format`. It holds each of `batch`, `columns`, `compression`, `delim`, `fullscanned` and `skiph` exactly when that field is set, with the field's value, and no other key. |
| ManifestHandle.Create | adenotifier/manifest.py:139-173 | Exactly one POST, of the create body, goes to the collection. Afterwards `id`, `state`, `created`, `modified`, `format` and every optional field equal the reply's, and the endpoint is unchanged. |
| ManifestHandle.KnownId | adenotifier/manifest.py:185-188 | An explicit id overrides the handle's id. Without one, the handle's id is used. |
| ManifestHandle.Refresh | adenotifier/manifest.py:80-97 | Exactly one GET of `.../manifests/{id}`, after which the handle mirrors the reply. |
| ManifestHandle.FetchManifest | adenotifier/manifest.py:175-191 | With no id known, raises `ValueError` and sends nothing. Otherwise it adopts the id, sends exactly one GET of that id, and overwrites every field from the reply. |
| ManifestHandle.FetchEntries | adenotifier/manifest.py:193-203 | With no id, raises `ValueError` and sends nothing. Otherwise it sends one GET of `.../{id}/entries`. A decoded reply replaces the cached entries and nothing else; a body that is not JSON raises, as `response.json()` does, and leaves the handle unchanged. |
| ManifestHandle.Notify | adenotifier/manifest.py:205-225 | An explicit id overrides the handle's id. With no id, raises `ValueError` and sends nothing. Otherwise it sends exactly one POST to `.../{id}/notify` and changes no field except `id`. |
| ManifestHandle.EnsureCreated | adenotifier/manifest.py:236-237 | The handle is created when it has no id and left alone when it has one. If the creation completes, the handle has an id. |
| ManifestHandle.EntryBody | adenotifier/manifest.py:242-249 | The entry body always holds `sourceFile`. It holds `batch` and `contentLength` exactly when given, and no other key. |
| ManifestHandle.AddEntry | adenotifier/manifest.py:227-251 | With an id: one POST of the entry body to `.../{id}/entries`, and the handle is unchanged. Without one: the create comes first and then the POST goes to the id it returned; if the create raises, nothing more is sent. |
| ManifestHandle.AddEntries | adenotifier/manifest.py:254-267 | Follows the same lazy-create rule, then sends exactly one PUT of the list, unchanged. The cached entries are not refreshed. |
| ManifestHandle.StepInvariant | adenotifier/manifest.py:175-267 | Every operation only appends to the log, keeps the endpoint and never forgets a known id. It raises `ValueError` exactly when it needs an id it lacks, and then it sends nothing and changes nothing. |
| ManifestHandle.StepLog | adenotifier/manifest.py:175-267 | The calls one operation appends: none when it lacks an id. Otherwise `add_entry`/`add_entries` on a handle without an id send exactly one create, and every other operation but `create` sends none. |
| ManifestHandle.StepCreates | adenotifier/manifest.py:227-267 | An operation other than `create` creates exactly one manifest when it is `add_entry`/`add_entries` on a handle without an id, and none otherwise. |
| ManifestHandle.RunCreatesAtMostOnce | adenotifier/manifest.py:236-237 | Any sequence of operations without an explicit `create` creates no manifest on a handle with an id, and at most one on a handle without one. |
| Notifier.Ids | adenotifier/notifier.py:36-41 | The ids are those of the listed manifests, in the order the service listed them. |
| Notifier.SearchManifests | adenotifier/notifier.py:8-41 | Exactly one GET of the collection with `?state=` and the upper-cased state. A list of manifests gives their ids in the order received, with no sorting. An empty list gives `[]`. Only `id` is read: a list of objects gives their ids if every object holds a string `id`, and raises if one does not. A session failure or any other document raises. |
| Notifier.ObjectIds | adenotifier/notifier.py:35-41 | The ids of a list of JSON objects exist exactly when every object holds a string `id`, and are those ids in list order. |
| Notifier.SearchReadsOnlyIds | adenotifier/notifier.py:38-39 | A list of objects holding only `id` gives the same search result as the full manifests with those ids: nothing but `id` is read. |
| Notifier.SearchOpen | adenotifier/notifier.py:75-82 | Both entry points search with the state `OPEN`, and it is sent as `OPEN`. |
| Notifier.JoinGroups | adenotifier/notifier.py:55-59 | The `batch += group` loop completes exactly when every group took part in the match. |
| Notifier.JoinGroupsIsConcat | adenotifier/notifier.py:55-59 | When the loop completes, it yields the in-order concatenation of the groups' texts. |
| Notifier.BatchFromMatch | adenotifier/notifier.py:56-61 | `parse_batch` fails with no match, with a bad pattern, with a group that did not take part, and with a concatenation that is not an integer literal (a pattern with no groups is one). Otherwise it returns the concatenation's integer value. |
| Notifier.BatchOfDigitGroups | adenotifier/notifier.py:55-61 | Digit-only groups, not all empty, give the decimal value of their concatenation. |
| Notifier.BatchOfTwoDigitGroups | adenotifier/notifier.py:58-61 | Two digit groups are parsed as their concatenation, which is all digits. |
| Notifier.BatchOfTwoGroups | adenotifier/notifier.py:58-61 | Two digit groups give the value of their concatenation, which is the first one's value shifted left by the second one's width, plus the second one's value. |
| Notifier.ParseBatchExample | adenotifier/notifier.py:43-61 | The groups "2024", "01", "02" of `(\d{4})(\d{2})(\d{2})` on `file_20240102_003.csv` give the batch 20240102. |
| Notifier.ParseBatchNoGroups | adenotifier/notifier.py:58-61 | A match without groups fails as not an integer. |
| Notifier.Seeded | adenotifier/notifier.py:95-107 | The handle prepared for creation copies `columns`, `compression`, `delim`, `fullscanned` and `skiph` exactly when the source configures them, and never sets `batch`. |
| Notifier.SeededCreateBody | adenotifier/notifier.py:95-109 | Its create body holds the configured format and exactly the configured optional parameters, and never a batch. |
| Notifier.SelectManifest | adenotifier/notifier.py:95-115 | With no open manifest it creates one. Otherwise it fetches the last id in the order received. On success the handle has an id and the source's endpoint. |
| Notifier.EntryPath | adenotifier/notifier.py:117-121 | Without both rewrite keys, the entry path is exactly `file_url`. |
| Notifier.EntryPathRewritten | adenotifier/notifier.py:117-121 | The entry path differs from `file_url` if and only if both rewrite keys are set, they differ, and `path_replace` occurs in the url. |
| Notifier.EntryPathFirstOccurrence | adenotifier/notifier.py:117-121 | With both rewrite keys set, the url up to the first occurrence of `path_replace` is kept, that occurrence becomes `path_replace_with`, and the rest of the url is rewritten the same way. |
| Notifier.EntryPathExample | adenotifier/notifier.py:119 | Rewriting `s3://raw/` to `s3://clean/` turns `s3://raw/a/b.csv` into `s3://clean/a/b.csv`. |
| Notifier.EntryBatch | adenotifier/notifier.py:123-132 | Without a pattern there is no batch. With one, the batch is set exactly when `parse_batch` succeeds, and then it has the parsed value. |
| Notifier.BatchIgnoresRewrite | adenotifier/notifier.py:123-126 | The batch is parsed from the original url: the rewrite keys do not change it. |
| Notifier.NotifyEach | adenotifier/notifier.py:180-183 | The loop only appends to the log, keeps the endpoint, and never raises `ValueError`: every id it fetches is given explicitly. |
| Notifier.NotifyRound | adenotifier/notifier.py:181-182 | One round sends the fetch of the id. When the fetch completes, the notify of the id the handle now holds follows, and neither call can raise `ValueError`. |
| Notifier.NotifyEachCompleted | adenotifier/notifier.py:180-183 | A completed loop has sent two calls per id: the fetch of the k-th id at position 2k, then a notify. So it sent as many notifies as there are ids. |
| Notifier.NotifyEachKinds | adenotifier/notifier.py:180-183 | The loop sends nothing but fetches and notifies. |
| Notifier.NotifyFound | adenotifier/notifier.py:175-183 | After the search, `notify_manifests` only appends fetches and notifies. After a successful search it never raises `ValueError`. |
| Notifier.NotifyManifests | adenotifier/notifier.py:145-184 | `notify_manifests` starts with the open search, then sends only fetches and notifies, and never raises `ValueError`. |
| NotifierProperties.PairsNotifyIds | adenotifier/notifier.py:180-183 | The notify calls among the fetch/notify pairs name exactly the ids, in order. |
| NotifierProperties.EchoedFetch | adenotifier/manifest.py:185-189 | Against a service that answers a fetch with the manifest asked for, a completed `fetch_manifest(id)` leaves the handle holding `id`. |
| NotifierProperties.NotifyEachEchoed | adenotifier/notifier.py:180-183 | Against such a service, the loop sends the fetch and then the notify of each id in turn. It sends all of them when it completes, and a prefix of them when an exception ends it. |
| NotifierProperties.NotifyFoundShape | adenotifier/notifier.py:175-183 | A failed search raises its error. An empty one sends nothing more. A completed loop fetched every id found in search order and notified as many times as there are ids. |
| NotifierProperties.NotifyFoundEchoed | adenotifier/notifier.py:175-183 | Against a service that echoes ids, what follows the search is a prefix of the fetch/notify pairs of the ids found, and all of them on completion. |
| NotifierProperties.NotifyManifestsNothingOpen | adenotifier/notifier.py:155-177 | A failed search raises after one call. With no open manifest, `notify_manifests` sends nothing but the search and completes without raising. |
| NotifierProperties.NotifyManifestsCompleted | adenotifier/notifier.py:175-183 | A completed `notify_manifests` fetched each open id once, in search order, and sent exactly as many notifies as there are open ids. |
| NotifierProperties.NotifyManifestsEchoed | adenotifier/notifier.py:145-184 | Against a service that echoes ids, the log is the search followed by a prefix of the fetch/notify pairs, and all of them on completion. The notified ids are then exactly the open ids, in order. |
| NotifierProperties.AddToSelectedShape | adenotifier/notifier.py:134-142 | Once a manifest is selected, the entry post to it comes next. A session failure on it raises. Without the single-file flag nothing else follows. With the flag, an answered post is followed by `notify_manifests`. |
| NotifierProperties.AddToSelectedTail | adenotifier/notifier.py:134-142 | After the entry post come at most one search, then fetches and notifies. |
| NotifierProperties.NotifyAfterPostKinds | adenotifier/notifier.py:138-142 | The `notify_manifests` that follows an entry post starts with its search right after the post, then sends only fetches and notifies. |
| NotifierProperties.AddToSelectedPosts | adenotifier/notifier.py:134-136 | After the selection, exactly one entry post goes out when the selection completed, and none otherwise. |
| NotifierProperties.AddToSelectedNoNotify | adenotifier/notifier.py:138-142 | Without the single-file flag, at most the entry post follows the selection, and nothing is notified. |
| NotifierProperties.AddToSelectedSingleFile | adenotifier/notifier.py:138-142 | With the single-file flag, an answered entry post is followed by `notify_manifests`, run on the log up to that post. |
| NotifierProperties.PostedToKnown | adenotifier/manifest.py:227-251 | `add_entry` on a handle with an id posts one entry body and keeps the handle. An answered post completes, and a session failure raises. |
| NotifierProperties.SelectionIsNoEntryPost | adenotifier/notifier.py:75-115 | After a successful search, the search and the selection are the two calls that follow the log. Neither of them is an entry post or a notify. |
| NotifierProperties.AddLayout | adenotifier/notifier.py:63-143 | `add_to_manifest` sends the open search first and the selection (create or fetch) second. The entry post comes third exactly when the selection completed. A failed search or selection raises with nothing more sent. |
| NotifierProperties.AddTail | adenotifier/notifier.py:134-142 | Every call after the entry post is a search, a fetch or a notify, and only the first of them can be a search. |
| NotifierProperties.AddCreatesOnlyInSelection | adenotifier/notifier.py:95-115 | No call of `add_to_manifest` other than the selection creates a manifest. |
| NotifierProperties.AddCreatesWhenNoneOpen | adenotifier/notifier.py:95-110 | With no open manifest, `add_to_manifest` creates exactly one manifest, right after the search, from the source's parameters. |
| NotifierProperties.AddReusesLastOpen | adenotifier/notifier.py:112-115 | With open manifests, it fetches the last id in the order received and creates nothing. Against a service that echoes ids, the entry goes to that id. |
| NotifierProperties.AddPostsOneEntry | adenotifier/notifier.py:117-136 | Exactly one entry is posted when the search and the selection succeed, and none otherwise. It carries the rewritten path and the parsed batch, and it is posted whether or not the batch could be parsed. |
| NotifierProperties.AddNotifiesOnlySingleFile | adenotifier/notifier.py:138-142 | Without `single_file_manifest`, nothing follows the entry post and nothing is notified. With it, an answered post is followed by `notify_manifests` on the same source. |
| NotifierProperties.NotifyManifestsReads | adenotifier/notifier.py:145-184 | `notify_manifests` reads only the source system, the source entity and the format of its source: two sources that agree on those send the same calls and end the same way. |
| NotifierProperties.AddToSelectedReads | adenotifier/notifier.py:117-142 | After the selection, `add_to_manifest` depends on its source only through the entry path, the batch, the single-file flag and what `notify_manifests` reads. |
| NotifierProperties.AddToManifestReads | adenotifier/notifier.py:63-143 | `add_to_manifest` depends on its source only through the source entity, the manifest parameters, the entry path, the batch and the single-file flag. |
| NotifierProperties.AddIgnoresMaxFiles | adenotifier/notifier.py:63-143 | `max_files_in_manifest` is read nowhere: changing it changes no call and no outcome. |
| NotifierProperties.AddFailedParseIsNoBatch | adenotifier/notifier.py:123-132 | A batch pattern that fails to parse gives the same calls and outcome as no pattern at all, so ingestion proceeds with `batch = None`. |
| ReferenceServer.ServeEchoesIds | adenotifier/manifest.py:82-94 | The reference service answers a fetch of `.../manifests/{id}` with the manifest `id`. |
| ReferenceServer.CreateKeepsParameters | adenotifier/manifest.py:144-173 | Against the reference service, `create` completes. The handle holds a server-assigned id, time stamps and state `OPEN`, and keeps the format and every optional parameter it was created with. |
| ReferenceServer.CreatedFromBody | adenotifier/manifest.py:144-159 | The manifest the reference service creates from a create body keeps the format and every optional parameter of the handle that sent it. |
| ReferenceServer.CreateThenFetch | adenotifier/manifest.py:175-191 | Create, then fetch by the handle's id: the fetch completes and leaves the handle exactly as the create did. |
| ReferenceServer.CreateThenFetchExample | adenotifier/manifest.py:139-191 | A manifest created with format `csv` and delimiter `,`, then fetched, is `OPEN`, has a server-assigned id and time stamps, and keeps its format and delimiter. |
| ReferenceServer.NotifyThenFetch | adenotifier/manifest.py:205-225 | After notifying a stored manifest, a fetch shows it `NOTIFIED` with the same id. |
| ReferenceServer.AddEntryThenFetchEntries | adenotifier/manifest.py:227-251 | After `add_entry` to a stored manifest, `fetch_manifest_entries` caches the old entries followed by the new entry body. |
| ReferenceServer.AddEntriesThenFetchEntries | adenotifier/manifest.py:254-267 | After `add_entries(list)`, "adds/overwrites": `fetch_manifest_entries` caches a list in which every stored entry whose `sourceFile` the list does not name survives, every listed entry not overridden by a later one with the same `sourceFile` is present, nothing else appears, and a stored entry whose `sourceFile` the list names is gone unless it is itself listed. |
| ReferenceServer.PutOne | adenotifier/manifest.py:255 | One put entry overwrites the stored entries with its `sourceFile`, keeping the list's length, and is appended when no entry has it. |
| ReferenceServer.PutAllUpserts | adenotifier/manifest.py:255 | A whole put list, applied in order, keeps the unnamed stored entries, holds every listed entry that no later one overrides, adds nothing else, and overwrites the stored entries it names: every entry left with a named `sourceFile` is a listed one. |
| ReferenceServer.ReplayWrite | adenotifier/manifest.py:205-267 | On the reference store, an entry post appends its body to the manifest it names, an entries put adds or overwrites that manifest's entries by `sourceFile`, and a notify seals it. No other manifest changes. |
| ReferenceServer.StoredAfterWrite | adenotifier/manifest.py:205-267 | After a write to a stored manifest of the handle's source entity, the manifest found under its id is the written version of the one found before. |
| ReferenceServer.ServeItem | adenotifier/manifest.py:82-94 | The reference service answers a fetch of a stored manifest with its record. |
| ReferenceServer.ServeEntries | adenotifier/manifest.py:193-203 | The reference service answers the entries GET of a stored manifest with its entries. |
| ReferenceServer.CreateThenSearchOpen | adenotifier/notifier.py:112-114 | After a create, the open search of the same source entity ends with the new manifest's id, so the next `add_to_manifest` reuses it. |

`Notifier.AddToManifest` and `Notifier.AddToSelected` define `add_to_manifest`. They carry no contract of their own: the `NotifierProperties` lemmas above state what they do.

## Left out

- HTTP sessions are not modelled: basic authentication, headers, urllib3 retry with backoff, and the `Content-Type` header (adenotifier/manifest.py:44-47, adenotifier/notifier.py:23-26). They are transport configuration. A session exception after retries appears as the `Fault` reply.
- The HTTP status code is not modelled beyond the retry rule. The retry adapter is mounted for `https://` only (adenotifier/manifest.py:47, adenotifier/notifier.py:26). With an `https://` base url, a GET or PUT that still receives 429, 500, 502, 503 or 504 after the three retries raises `RetryError`, and that is a `Fault`. Every other reply is a `Reply`: a POST's of any status (urllib3 does not retry POST by default), the 4xx replies requests does not raise on, and every reply over `http://`, where nothing is retried. What matters then is whether its JSON holds what the code reads.
- `__api_caller`'s re-wrapping of exceptions and the `latest_response` property are left out (adenotifier/manifest.py:49-78). They are bookkeeping that no modelled operation reads.
- `json.dumps` is left out, and `response.json()` is modelled by its result only: a reply is its decoded document, or `Undecodable` for a body that is not JSON, on which every reading operation raises `MalformedReply`.
- A partial assignment before a `KeyError` is not modelled. The model raises with the handle unchanged, whereas Python may already have assigned the fields that come before the missing key.
- Notifier.SearchManifests: raises on a list object whose `id` is not a string, whereas Python carries any value (a number, say) into the urls it later formats; the model's ids are strings.
- An empty JSON object `{}` or an empty JSON string `""` as a search reply is not modelled: Python iterates its zero keys or characters and returns `[]`, while the model treats every non-list document as malformed.
- ManifestHandle.Reload: a manifest reply whose values have other JSON types than the `Record` fields is not modelled. Examples are `null` in any field, a string `batch` such as `"7"`, a fractional `skiph` or a string `fullscanned`. Python assigns each value without checking its type (adenotifier/manifest.py:87-97 for fetch, 163-172 for create), so `create` and `fetch_manifest` complete and `add_to_manifest` goes on to post. In the model, such a reply can only be `OtherJson`, and `Reload`, hence `Create`, `Refresh` and `FetchManifest`, raises `MalformedReply` instead. The record's fields are typed because every later url and body is built from them; a null id, which would make `add_entry` post to `.../manifests/None/entries`, is outside the model.
- The regular expression engine is a parameter, because it is a foreign library.
- PyStr.ParseInt: does not accept Python's leniencies (surrounding whitespace, underscores between digits, non-ASCII digits). They would only add inputs on which the batch parse succeeds. It also accepts digit strings of any length, whereas CPython 3.11 and later raise `ValueError` on more than 4300 digits, so on such a batch group the model gives a number where Python gives `None`.
- PyStr.Upper: upper-cases ASCII letters only, not all of Unicode.
- Logging is left out. It has no effect beyond the warning for a failed batch parse or for no open manifest, and both are modelled as completing without an exception.
- adenotifier/adetypes.py is used only as the shape of the `Attributes`/`Parameters` datatypes. `single_file_manifest` is modelled as an optional bool: only `Some(true)` notifies. Python's truthiness of other values, such as a non-empty string, is not modelled.
- A configuration key present with the value `null` is not modelled. Each key is either absent (`None`) or holds a value.
- A capacity limit per manifest and sorting the search results by creation time are not modelled, because the code does neither. `max_files_in_manifest` is carried in the configuration and proved unused (`NotifierProperties.AddIgnoresMaxFiles`). The ids are taken in the order the service returns them (`Notifier.SearchManifests`), and "the latest open manifest" is the last one returned. The reference server lists manifests in creation order, so against it the last one returned is the newest.
- The reference server's put keys entries on `sourceFile`, as "adds/overwrites" says; an entry without `sourceFile` is appended. The service's real matching rule is not part of this model.
- Races between concurrent callers are not modelled: the model is sequential, and the search-then-act sequence is not atomic.
- setup.py is packaging only.
- NotifierProperties.NotifyEachEchoed, NotifierProperties.NotifyManifestsEchoed, NotifierProperties.AddReusesLastOpen: the claim that a notify or an entry goes to the requested id holds only against a service that echoes the id it is asked for (`NotifyApi.EchoesIds`). The code notifies the id the fetch reply reports, and for an arbitrary service only "a notify follows each fetch" is proved.

=== FILE: common.dfy ===
/** Small failure-carrying datatypes shared by the whole model. */
module Common {

  /** A Python value that may be `None`, or a dictionary key that may be absent. */
  datatype Option<+T> = None | Some(value: T) {

    function GetOr(default: T): T {
      match this
      case Some(v) => v
      case None => default
    }
  }

  /** A computation that either produced a value or raised an error. */
  datatype Result<+T, +E> = Success(value: T) | Failure(error: E) {

    /** The value if there is one; a caught exception becomes `None`. */
    function ToOption(): (o: Option<T>)
      ensures o.Some? <==> Success?
      ensures Success? ==> o.value == value
    {
      match this
      case Success(v) => Some(v)
      case Failure(_) => None
    }
  }
}

=== FILE: manifest.dfy ===
/**
  The `Manifest` handle: a client-side proxy for one manifest resource of the
  Notify API.  It is a value; every operation returns the handle after the
  operation, the call log after it, and whether it raised.
 */
module ManifestHandle {
  import opened Common
  import opened NotifyApi

  /** The exceptions the handle's operations can raise.  `NoManifestId` is
      the `ValueError` for an operation that needs an id before one is
      known; `TransportFailed` is an exception of the HTTP session;
      `MalformedReply` is an exception of reading a reply: the decode error
      of `response.json()` on a body that is not JSON, or the
      `KeyError`/`TypeError` of reading a manifest out of a document that
      does not hold one. */
  datatype Error = NoManifestId | TransportFailed | MalformedReply

  datatype Outcome = Done | Raised(error: Error)

  /** The handle.  `id`, `state`, `created`, `modified` and `format` are the
      read-only snapshot of the server; `batch` to `skiph` are the fields a
      caller may set before `create`; `entries` caches the last entry list
      fetched. */
  datatype Manifest = Manifest(
    base: string,
    system: string,
    entity: string,
    id: Option<string>,
    state: Option<string>,
    created: Option<string>,
    modified: Option<string>,
    format: string,
    batch: Option<int>,
    columns: Option<seq<string>>,
    compression: Option<string>,
    delim: Option<string>,
    fullscanned: Option<bool>,
    skiph: Option<int>,
    entries: Option<Payload>)
  {
    /** A resource of this handle's source entity. */
    function At(r: Resource): Target {
      Target(base, system, entity, r)
    }
  }

  /** The result of one operation on a handle. */
  datatype Effect = Effect(manifest: Manifest, log: seq<Call>, outcome: Outcome)

  /** The constructor: only the source entity and the format are known. */
  function New(base: string, system: string, entity: string, format: string): (m: Manifest)
    ensures m.base == base && m.system == system && m.entity == entity && m.format == format
    ensures m.id.None? && m.state.None? && m.created.None? && m.modified.None?
    ensures m.batch.None? && m.columns.None? && m.compression.None?
    ensures m.delim.None? && m.fullscanned.None? && m.skiph.None? && m.entries.None?
  {
    Manifest(base, system, entity, None, None, None, None, format, None, None, None, None, None, None, None)
  }

  /** Both handles address the same source entity of the same API. */
  predicate SameEndpoint(a: Manifest, b: Manifest) {
    a.base == b.base && a.system == b.system && a.entity == b.entity
  }

  /** Every field the API reports has the value of `r`. */
  predicate Mirrors(m: Manifest, r: Record) {
    && m.id == Some(r.id)
    && m.state == Some(r.state)
    && m.created == Some(r.created)
    && m.modified == Some(r.modified)
    && m.format == r.format
    && m.batch == r.batch
    && m.columns == r.columns
    && m.compression == r.compression
    && m.delim == r.delim
    && m.fullscanned == r.fullscanned
    && m.skiph == r.skiph
  }

  /** `after` is `before` after reading the manifest in `reply`: on a
      manifest every reported field is overwritten and nothing else changes;
      otherwise the exception leaves the handle as it was. */
  predicate ReloadedFrom(before: Manifest, after: Manifest, reply: Response, outcome: Outcome) {
    match reply
    case Fault => outcome == Raised(TransportFailed) && after == before
    case Reply(ManifestObject(r)) =>
      outcome == Done && Mirrors(after, r) && SameEndpoint(after, before) && after.entries == before.entries
    case Reply(_) => outcome == Raised(MalformedReply) && after == before
  }

  function Adopt(m: Manifest, r: Record): Manifest {
    m.(id := Some(r.id), state := Some(r.state), created := Some(r.created), modified := Some(r.modified),
       format := r.format, batch := r.batch, columns := r.columns, compression := r.compression,
       delim := r.delim, fullscanned := r.fullscanned, skiph := r.skiph)
  }

  /** Read the manifest out of a reply that has already been logged. */
  function Reload(m: Manifest, log: seq<Call>, reply: Response): (e: Effect)
    ensures e.log == log
    ensures ReloadedFrom(m, e.manifest, reply, e.outcome)
  {
    match reply
    case Fault => Effect(m, log, Raised(TransportFailed))
    case Reply(ManifestObject(r)) => Effect(Adopt(m, r), log, Done)
    case Reply(_) => Effect(m, log, Raised(MalformedReply))
  }

  // ---------------------------------------------------------------------
  // create
  // ---------------------------------------------------------------------

  /** An optional field as the JSON value it is sent as. */
  function IntValue(o: Option<int>): Option<Value> {
    if o.Some? then Some(Int(o.value)) else None
  }

  function StrValue(o: Option<string>): Option<Value> {
    if o.Some? then Some(Str(o.value)) else None
  }

  function BoolValue(o: Option<bool>): Option<Value> {
    if o.Some? then Some(Bool(o.value)) else None
  }

  function ListValue(o: Option<seq<string>>): Option<Value> {
    if o.Some? then Some(StrList(o.value)) else None
  }

  /** `body` holds `key` exactly when `v` is set, and then with the value of
      `v`. */
  predicate Carries(body: Object, key: string, v: Option<Value>) {
    (key in body <==> v.Some?) && (v.Some? ==> body[key] == v.value)
  }

  const CreateKeys: set<string> := {"format", "batch", "columns", "compression", "delim", "fullscanned", "skiph"}

  /** The value sent for `key` in the create request, if any. */
  function CreateField(m: Manifest, key: string): Option<Value> {
    if key == "format" then Some(Str(m.format))
    else if key == "batch" then IntValue(m.batch)
    else if key == "columns" then ListValue(m.columns)
    else if key == "compression" then StrValue(m.compression)
    else if key == "delim" then StrValue(m.delim)
    else if key == "fullscanned" then BoolValue(m.fullscanned)
    else if key == "skiph" then IntValue(m.skiph)
    else None
  }

  /** The body of the create request: `format` always, every optional field
      exactly when it is set, and nothing else. */
  function CreateBody(m: Manifest): (body: Object)
    ensures Carries(body, "format", Some(Str(m.format)))
    ensures Carries(body, "batch", IntValue(m.batch))
    ensures Carries(body, "columns", ListValue(m.columns))
    ensures Carries(body, "compression", StrValue(m.compression))
    ensures Carries(body, "delim", StrValue(m.delim))
    ensures Carries(body, "fullscanned", BoolValue(m.fullscanned))
    ensures Carries(body, "skiph", IntValue(m.skiph))
    ensures body.Keys <= {"format", "batch", "columns", "compression", "delim", "fullscanned", "skiph"}
  {
    map key | key in CreateKeys && CreateField(m, key).Some? :: CreateField(m, key).value
  }

  function CreateCall(m: Manifest): Call {
    Call(Post, m.At(Collection(None)), Obj(CreateBody(m)))
  }

  /** `create()`: one POST to the collection; the handle then mirrors the
      manifest the server returns. */
  function Create(api: Api, m: Manifest, log: seq<Call>): (e: Effect)
    ensures e.log == log + [CreateCall(m)]
    ensures ReloadedFrom(m, e.manifest, api(log, CreateCall(m)), e.outcome)
  {
    var x := Exchange(api, log, CreateCall(m));
    Reload(m, x.0, x.1)
  }

  // ---------------------------------------------------------------------
  // fetch_manifest, fetch_manifest_entries, notify
  // ---------------------------------------------------------------------

  /** The id an operation that takes an optional id works on: the argument
      when given, the handle's own id otherwise. */
  function KnownId(m: Manifest, id: Option<string>): (k: Option<string>)
    ensures k.Some? <==> id.Some? || m.id.Some?
    ensures id.Some? ==> k == id
    ensures id.None? ==> k == m.id
  {
    if id.Some? then id else m.id
  }

  function FetchCall(m: Manifest, id: string): Call {
    Call(Get, m.At(Item(id)), Null)
  }

  /** `__refresh_manifest()`: GET the manifest and mirror it. */
  function Refresh(api: Api, m: Manifest, log: seq<Call>): (e: Effect)
    requires m.id.Some?
    ensures e.log == log + [FetchCall(m, m.id.value)]
    ensures ReloadedFrom(m, e.manifest, api(log, FetchCall(m, m.id.value)), e.outcome)
  {
    var x := Exchange(api, log, FetchCall(m, m.id.value));
    Reload(m, x.0, x.1)
  }

  /** `fetch_manifest(id)`: adopt the given id, then refresh every field from
      a GET of that manifest; with no id at all, raise without a call. */
  function FetchManifest(api: Api, m: Manifest, log: seq<Call>, id: Option<string>): (e: Effect)
    ensures KnownId(m, id).None? ==> e == Effect(m, log, Raised(NoManifestId))
    ensures KnownId(m, id).Some? ==>
      var k := KnownId(m, id).value;
      && e.log == log + [FetchCall(m, k)]
      && ReloadedFrom(m.(id := Some(k)), e.manifest, api(log, FetchCall(m, k)), e.outcome)
  {
    var m1 := if id.Some? then m.(id := id) else m;
    if m1.id.None? then Effect(m1, log, Raised(NoManifestId))
    else Refresh(api, m1, log)
  }

  function EntriesGetCall(m: Manifest, id: string): Call {
    Call(Get, m.At(ItemEntries(id)), Null)
  }

  /** `fetch_manifest_entries()`: with an id, one GET of the entries whose
      decoded reply replaces the cache and nothing else; a reply that does
      not decode raises and leaves the cache as it was; without an id,
      raise without a call. */
  function FetchEntries(api: Api, m: Manifest, log: seq<Call>): (e: Effect)
    ensures m.id.None? ==> e == Effect(m, log, Raised(NoManifestId))
    ensures m.id.Some? ==>
      var c := EntriesGetCall(m, m.id.value);
      && e.log == log + [c]
      && (api(log, c).Fault? ==> e.manifest == m && e.outcome == Raised(TransportFailed))
      && (api(log, c) == Reply(Undecodable) ==> e.manifest == m && e.outcome == Raised(MalformedReply))
      && (api(log, c).Reply? && api(log, c).payload != Undecodable ==>
            e.manifest == m.(entries := Some(api(log, c).payload)) && e.outcome == Done)
  {
    if m.id.None? then Effect(m, log, Raised(NoManifestId))
    else
      var x := Exchange(api, log, EntriesGetCall(m, m.id.value));
      match x.1
      case Fault => Effect(m, x.0, Raised(TransportFailed))
      case Reply(Undecodable) => Effect(m, x.0, Raised(MalformedReply))
      case Reply(p) => Effect(m.(entries := Some(p)), x.0, Done)
  }

  function NotifyCall(m: Manifest, id: string): Call {
    Call(Post, m.At(ItemNotify(id)), Null)
  }

  /** `notify(id)`: an explicit id overrides the handle's; with an id, exactly
      one POST to its notify resource and no other field changes; without
      one, raise without a call.  The reply is not read. */
  function Notify(api: Api, m: Manifest, log: seq<Call>, id: Option<string>): (e: Effect)
    ensures e.manifest == m.(id := KnownId(m, id))
    ensures KnownId(m, id).None? ==> e.log == log && e.outcome == Raised(NoManifestId)
    ensures KnownId(m, id).Some? ==>
      var c := NotifyCall(m, KnownId(m, id).value);
      && e.log == log + [c]
      && (e.outcome == Done <==> api(log, c).Reply?)
      && (api(log, c).Fault? ==> e.outcome == Raised(TransportFailed))
  {
    var m1 := if id.Some? then m.(id := id) else m;
    if m1.id.None? then Effect(m1, log, Raised(NoManifestId))
    else
      var x := Exchange(api, log, NotifyCall(m1, m1.id.value));
      Effect(m1, x.0, if x.1.Fault? then Raised(TransportFailed) else Done)
  }

  // ---------------------------------------------------------------------
  // add_entry, add_entries
  // ---------------------------------------------------------------------

  /** The lazy creation step of `add_entry` and `add_entries`: create the
      manifest when the handle has no id, otherwise do nothing. */
  function EnsureCreated(api: Api, m: Manifest, log: seq<Call>): (e: Effect)
    ensures m.id.Some? ==> e == Effect(m, log, Done)
    ensures m.id.None? ==> e == Create(api, m, log)
    ensures e.outcome.Done? ==> e.manifest.id.Some?
  {
    if m.id.None? then Create(api, m, log) else Effect(m, log, Done)
  }

  /** The body of one entry: `sourceFile` always, `batch` and
      `contentLength` exactly when given. */
  function EntryBody(sourceFile: string, batch: Option<int>, contentLength: Option<int>): (body: Object)
    ensures "sourceFile" in body && body["sourceFile"] == Str(sourceFile)
    ensures "batch" in body <==> batch.Some?
    ensures "contentLength" in body <==> contentLength.Some?
    ensures batch.Some? ==> body["batch"] == Int(batch.value)
    ensures contentLength.Some? ==> body["contentLength"] == Int(contentLength.value)
    ensures body.Keys <= {"sourceFile", "batch", "contentLength"}
  {
    var b0 := map["sourceFile" := Str(sourceFile)];
    var b1 := if batch.Some? then b0["batch" := Int(batch.value)] else b0;
    if contentLength.Some? then b1["contentLength" := Int(contentLength.value)] else b1
  }

  function EntryPostCall(m: Manifest, id: string, body: Object): Call {
    Call(Post, m.At(ItemEntries(id)), Obj(body))
  }

  function EntriesPutCall(m: Manifest, id: string, entries: seq<Object>): Call {
    Call(Put, m.At(ItemEntries(id)), ObjList(entries))
  }

  /** Send a call whose reply is not read: only a session exception raises. */
  function Fire(api: Api, m: Manifest, log: seq<Call>, c: Call): (e: Effect)
    ensures e.manifest == m && e.log == log + [c]
    ensures e.outcome == Done <==> api(log, c).Reply?
    ensures api(log, c).Fault? ==> e.outcome == Raised(TransportFailed)
  {
    var x := Exchange(api, log, c);
    Effect(m, x.0, if x.1.Fault? then Raised(TransportFailed) else Done)
  }

  /** `add_entry(source_file, batch, content_length)`. */
  function AddEntry(api: Api, m: Manifest, log: seq<Call>, sourceFile: string, batch: Option<int>,
                    contentLength: Option<int>): (e: Effect)
    ensures m.id.Some? ==>
      var c := EntryPostCall(m, m.id.value, EntryBody(sourceFile, batch, contentLength));
      && e.manifest == m && e.log == log + [c]
      && (e.outcome == Done <==> api(log, c).Reply?)
    ensures m.id.None? ==>
      var cr := Create(api, m, log);
      && (cr.outcome.Raised? ==> e == cr)
      && (cr.outcome.Done? ==>
            var c := EntryPostCall(m, cr.manifest.id.value, EntryBody(sourceFile, batch, contentLength));
            && e.manifest == cr.manifest && e.log == log + [CreateCall(m), c]
            && (e.outcome == Done <==> api(cr.log, c).Reply?))
  {
    var c := EnsureCreated(api, m, log);
    if c.outcome.Raised? then c
    else
      var body := EntryBody(sourceFile, batch, contentLength);
      Fire(api, c.manifest, c.log, EntryPostCall(c.manifest, c.manifest.id.value, body))
  }

  /** `add_entries(entries)`: the list goes out unchanged in one PUT, and the
      cached entries are not refreshed. */
  function AddEntries(api: Api, m: Manifest, log: seq<Call>, entries: seq<Object>): (e: Effect)
    ensures e.manifest.entries == m.entries
    ensures m.id.Some? ==>
      var c := EntriesPutCall(m, m.id.value, entries);
      && e.manifest == m && e.log == log + [c]
      && (e.outcome == Done <==> api(log, c).Reply?)
    ensures m.id.None? ==>
      var cr := Create(api, m, log);
      && (cr.outcome.Raised? ==> e == cr)
      && (cr.outcome.Done? ==>
            var c := EntriesPutCall(m, cr.manifest.id.value, entries);
            && e.manifest == cr.manifest && e.log == log + [CreateCall(m), c]
            && (e.outcome == Done <==> api(cr.log, c).Reply?))
  {
    var c := EnsureCreated(api, m, log);
    if c.outcome.Raised? then c
    else Fire(api, c.manifest, c.log, EntriesPutCall(c.manifest, c.manifest.id.value, entries))
  }

  // ---------------------------------------------------------------------
  // The handle as a state machine
  // ---------------------------------------------------------------------

  /** One public operation of the handle. */
  datatype Op =
    | CreateOp
    | FetchManifestOp(id: Option<string>)
    | FetchEntriesOp
    | NotifyOp(id: Option<string>)
    | AddEntryOp(sourceFile: string, batch: Option<int>, contentLength: Option<int>)
    | AddEntriesOp(entries: seq<Object>)

  function Step(api: Api, m: Manifest, log: seq<Call>, op: Op): Effect {
    match op
    case CreateOp => Create(api, m, log)
    case FetchManifestOp(id) => FetchManifest(api, m, log, id)
    case FetchEntriesOp => FetchEntries(api, m, log)
    case NotifyOp(id) => Notify(api, m, log, id)
    case AddEntryOp(f, b, n) => AddEntry(api, m, log, f, b, n)
    case AddEntriesOp(es) => AddEntries(api, m, log, es)
  }

  /** Whether the operation needs an id that neither it nor the handle has;
      such an operation raises `ValueError`. */
  predicate NeedsMissingId(m: Manifest, op: Op) {
    match op
    case FetchManifestOp(id) => KnownId(m, id).None?
    case FetchEntriesOp => m.id.None?
    case NotifyOp(id) => KnownId(m, id).None?
    case _ => false
  }

  /** Every operation only appends to the log, keeps the endpoint, never
      forgets a known id, and raises the precondition error exactly when it
      needs an id it does not have, in which case it sends nothing. */
  lemma StepInvariant(api: Api, m: Manifest, log: seq<Call>, op: Op)
    ensures var e := Step(api, m, log, op);
      && |log| <= |e.log| && e.log[..|log|] == log
      && SameEndpoint(e.manifest, m)
      && (m.id.Some? ==> e.manifest.id.Some?)
      && (e.outcome == Raised(NoManifestId) <==> NeedsMissingId(m, op))
      && (NeedsMissingId(m, op) ==> e.log == log && e.manifest == m)
  {
    var added := StepLog(api, m, log, op);
    AppendPrefix(log, added);
  }

  /** A script of operations, run until the first one that raises. */
  function RunOps(api: Api, m: Manifest, log: seq<Call>, ops: seq<Op>): Effect
    decreases |ops|
  {
    if ops == [] then Effect(m, log, Done)
    else
      var e := Step(api, m, log, ops[0]);
      if e.outcome.Raised? then e else RunOps(api, e.manifest, e.log, ops[1..])
  }

  /** Lazy creation happens at most once: a script without an explicit
      `create` creates no manifest when the handle already has an id and at
      most one when it has none. */
  lemma {:induction false} RunCreatesAtMostOnce(api: Api, m: Manifest, log: seq<Call>, ops: seq<Op>)
    requires forall i :: 0 <= i < |ops| ==> !ops[i].CreateOp?
    ensures var e := RunOps(api, m, log, ops);
      && |log| <= |e.log| && e.log[..|log|] == log
      && SameEndpoint(e.manifest, m)
      && (m.id.Some? ==> e.manifest.id.Some?)
      && Count(e.log[|log|..], IsCreate) <= (if m.id.None? then 1 else 0)
    decreases |ops|
  {
    var e := RunOps(api, m, log, ops);
    if ops == [] {
      assert e.log[|log|..] == [];
    } else {
      var s := Step(api, m, log, ops[0]);
      StepInvariant(api, m, log, ops[0]);
      var created := StepCreates(api, m, log, ops[0]);
      if s.outcome.Done? {
        var rest := RunOps(api, s.manifest, s.log, ops[1..]);
        assert e == rest;
        RunCreatesAtMostOnce(api, s.manifest, s.log, ops[1..]);
        PrefixCount(log, s.log, rest.log, IsCreate);
      }
    }
  }

  /** A log extended twice counts what each extension adds. */
  lemma PrefixCount(log: seq<Call>, mid: seq<Call>, last: seq<Call>, p: Call -> bool)
    requires |log| <= |mid| && mid[..|log|] == log
    requires |mid| <= |last| && last[..|mid|] == mid
    ensures |log| <= |last| && last[..|log|] == log
    ensures Count(last[|log|..], p) == Count(mid[|log|..], p) + Count(last[|mid|..], p)
  {
    assert last[..|log|] == last[..|mid|][..|log|];
    assert last[|log|..] == mid[|log|..] + last[|mid|..];
    CountAppend(mid[|log|..], last[|mid|..], p);
  }

  /** How many manifests one operation other than `create` creates: one
      exactly when it is an entry operation on a handle without an id, and
      then the handle has an id afterwards unless the creation raised. */
  lemma StepCreates(api: Api, m: Manifest, log: seq<Call>, op: Op) returns (n: nat)
    requires !op.CreateOp?
    ensures var e := Step(api, m, log, op);
      && |log| <= |e.log|
      && n == Count(e.log[|log|..], IsCreate)
      && n == (if m.id.None? && (op.AddEntryOp? || op.AddEntriesOp?) then 1 else 0)
      && (e.outcome.Done? && (op.AddEntryOp? || op.AddEntriesOp?) ==> e.manifest.id.Some?)
  {
    var e := Step(api, m, log, op);
    var added := StepLog(api, m, log, op);
    assert e.log[|log|..] == added;
    n := Count(added, IsCreate);
  }

  /** The calls one operation appends to the log: none when it lacks an
      id, the create first when it creates lazily, and only then its own
      call. */
  lemma StepLog(api: Api, m: Manifest, log: seq<Call>, op: Op) returns (added: seq<Call>)
    ensures Step(api, m, log, op).log == log + added
    ensures NeedsMissingId(m, op) ==> added == []
    ensures !op.CreateOp? ==> Count(added, IsCreate) == (if m.id.None? && (op.AddEntryOp? || op.AddEntriesOp?) then 1 else 0)
  {
    match op {
    case CreateOp =>
      added := [CreateCall(m)];
    case FetchManifestOp(id) =>
      if KnownId(m, id).None? {
        added := [];
      } else {
        added := [FetchCall(m, KnownId(m, id).value)];
        CountOne(added[0], IsCreate);
      }
    case FetchEntriesOp =>
      if m.id.None? {
        added := [];
      } else {
        added := [EntriesGetCall(m, m.id.value)];
        CountOne(added[0], IsCreate);
      }
    case NotifyOp(id) =>
      if KnownId(m, id).None? {
        added := [];
      } else {
        added := [NotifyCall(m, KnownId(m, id).value)];
        CountOne(added[0], IsCreate);
      }
    case AddEntryOp(f, b, k) =>
      var cr := Create(api, m, log);
      if m.id.Some? {
        added := [EntryPostCall(m, m.id.value, EntryBody(f, b, k))];
        CountOne(added[0], IsCreate);
      } else if cr.outcome.Raised? {
        added := [CreateCall(m)];
        CountOne(added[0], IsCreate);
      } else {
        added := [CreateCall(m), EntryPostCall(m, cr.manifest.id.value, EntryBody(f, b, k))];
        CountTwo(added[0], added[1], IsCreate);
      }
    case AddEntriesOp(es) =>
      var cr := Create(api, m, log);
      if m.id.Some? {
        added := [EntriesPutCall(m, m.id.value, es)];
        CountOne(added[0], IsCreate);
      } else if cr.outcome.Raised? {
        added := [CreateCall(m)];
        CountOne(added[0], IsCreate);
      } else {
        added := [CreateCall(m), EntriesPutCall(m, cr.manifest.id.value, es)];
        CountTwo(added[0], added[1], IsCreate);
      }
    }
  }

  lemma AppendPrefix(log: seq<Call>, added: seq<Call>)
    ensures |log| <= |log + added| && (log + added)[..|log|] == log
  {
  }

  lemma CountOne(a: Call, p: Call -> bool)
    ensures Count([a], p) == if p(a) then 1 else 0
  {
    assert [a][..0] == [];
  }

  lemma CountTwo(a: Call, b: Call, p: Call -> bool)
    ensures Count([a, b], p) == (if p(a) then 1 else 0) + (if p(b) then 1 else 0)
  {
    assert [a, b][..1] == [a];
    CountOne(a, p);
  }

}

=== FILE: notifier.dfy ===
/**
  The notifier functions: searching the open manifests of a data source,
  parsing a batch number out of a file url, routing one file into a
  manifest (`add_to_manifest`), and notifying every open manifest
  (`notify_manifests`).
 */
module Notifier {
  import opened Common
  import opened PyStr
  import opened NotifyApi
  import opened ManifestHandle

  // ---------------------------------------------------------------------
  // Data source configuration
  // ---------------------------------------------------------------------

  /** `source['attributes']`.  An optional key is `None` when it is absent. */
  datatype Attributes = Attributes(
    system: string,                     // ade_source_system
    entity: string,                     // ade_source_entity
    batchRegex: Option<string>,         // batch_from_file_path_regex
    pathReplace: Option<string>,        // path_replace
    pathReplaceWith: Option<string>,    // path_replace_with
    singleFileManifest: Option<bool>,   // single_file_manifest
    maxFilesInManifest: Option<int>)    // max_files_in_manifest (never read)

  /** `source['manifest_parameters']`. */
  datatype Parameters = Parameters(
    format: string,
    columns: Option<seq<string>>,
    compression: Option<string>,
    delim: Option<string>,
    fullscanned: Option<bool>,
    skiph: Option<int>)

  /** One configured data source. */
  datatype Source = Source(id: string, attributes: Attributes, parameters: Parameters)

  // ---------------------------------------------------------------------
  // search_manifests
  // ---------------------------------------------------------------------

  /** The ids of the listed manifests, in the order the API listed them. */
  function Ids(records: seq<Record>): (ids: seq<string>)
    ensures |ids| == |records|
    ensures forall i :: 0 <= i < |records| ==> ids[i] == records[i].id
  {
    if records == [] then [] else Ids(records[..|records| - 1]) + [records[|records| - 1].id]
  }

  function SearchCall(base: string, system: string, entity: string, state: string): Call {
    Call(Get, Target(base, system, entity, Collection(Some(Upper(state)))), Absent)
  }

  /** The outcome of a search: the log after it and the ids found. */
  datatype Lookup = Lookup(log: seq<Call>, result: Result<seq<string>, Error>)

  /** Whether `o` holds a string under `"id"`. */
  predicate HasId(o: Object) {
    "id" in o && o["id"].Str?
  }

  /** The `"id"` of each object of a decoded list, in order; `None` when one
      of them holds no string id. */
  function ObjectIds(objects: seq<Object>): (ids: Option<seq<string>>)
    ensures ids.Some? <==> forall i :: 0 <= i < |objects| ==> HasId(objects[i])
    ensures ids.Some? ==>
      |ids.value| == |objects| && forall i :: 0 <= i < |objects| ==> ids.value[i] == objects[i]["id"].s
  {
    if objects == [] then Some([])
    else
      var init := ObjectIds(objects[..|objects| - 1]);
      var last := objects[|objects| - 1];
      if init.Some? && HasId(last) then Some(init.value + [last["id"].s]) else None
  }

  /** `search_manifests(...)`: one GET of the collection filtered by the
      upper-cased state; the ids come back in the order the API returned
      them, without any sorting.  Only the `id` of each listed object is
      read: a list whose objects all hold a string id gives those ids, an
      empty list gives `[]`, and a list with an object without one raises,
      as does any other document. */
  function SearchManifests(api: Api, log: seq<Call>, base: string, system: string, entity: string,
                           state: string): (s: Lookup)
    ensures s.log == log + [SearchCall(base, system, entity, state)]
    ensures var reply := api(log, SearchCall(base, system, entity, state));
      && (reply.Fault? ==> s.result == Failure(TransportFailed))
      && (reply.Reply? && reply.payload.ManifestArray? ==>
            && s.result.Success?
            && |s.result.value| == |reply.payload.records|
            && forall i :: 0 <= i < |s.result.value| ==> s.result.value[i] == reply.payload.records[i].id)
      && (reply.Reply? && reply.payload.EntryArray? ==>
            var objects := reply.payload.entries;
            && (s.result.Success? <==> forall i :: 0 <= i < |objects| ==> HasId(objects[i]))
            && (s.result.Success? ==>
                  |s.result.value| == |objects| &&
                  forall i :: 0 <= i < |objects| ==> s.result.value[i] == objects[i]["id"].s)
            && (s.result.Failure? ==> s.result.error == MalformedReply))
      && (reply.Reply? && !reply.payload.ManifestArray? && !reply.payload.EntryArray? ==>
            s.result == Failure(MalformedReply))
  {
    var x := Exchange(api, log, SearchCall(base, system, entity, state));
    match x.1
    case Fault => Lookup(x.0, Failure(TransportFailed))
    case Reply(ManifestArray(records)) => Lookup(x.0, Success(Ids(records)))
    case Reply(EntryArray(objects)) =>
      var ids := ObjectIds(objects);
      Lookup(x.0, if ids.Some? then Success(ids.value) else Failure(MalformedReply))
    case Reply(_) => Lookup(x.0, Failure(MalformedReply))
  }

  /** A list of objects with ids gives the same ids as a list of the
      manifests those ids name: the search reads nothing but `id`. */
  lemma SearchReadsOnlyIds(api: Api, api': Api, log: seq<Call>, base: string, system: string, entity: string,
                           state: string, objects: seq<Object>, records: seq<Record>)
    requires |objects| == |records|
    requires forall i :: 0 <= i < |objects| ==> objects[i] == map["id" := Str(records[i].id)]
    requires api(log, SearchCall(base, system, entity, state)) == Reply(EntryArray(objects))
    requires api'(log, SearchCall(base, system, entity, state)) == Reply(ManifestArray(records))
    ensures SearchManifests(api, log, base, system, entity, state) == SearchManifests(api', log, base, system, entity, state)
  {
    var ids := ObjectIds(objects);
    assert forall i :: 0 <= i < |objects| ==> HasId(objects[i]);
    assert ids.value == Ids(records);
  }

  function OpenCall(base: string, a: Attributes): Call {
    SearchCall(base, a.system, a.entity, "OPEN")
  }

  /** The search both entry points start with. */
  function SearchOpen(api: Api, log: seq<Call>, base: string, a: Attributes): (s: Lookup)
    ensures s.log == log + [OpenCall(base, a)]
    ensures OpenCall(base, a).target.resource == Collection(Some("OPEN"))
  {
    UpperIdempotent("OPEN");
    SearchManifests(api, log, base, a.system, a.entity, "OPEN")
  }

  // ---------------------------------------------------------------------
  // parse_batch
  // ---------------------------------------------------------------------

  /** What `re.search(pattern, text)` gives: no match (`None`), a pattern
      that does not compile (`re.error`), or the match's `groups()`, where a
      group that did not take part in the match is `None`. */
  datatype MatchResult = NoMatch | BadPattern | Match(groups: seq<Option<string>>)

  /** The regular expression engine, `re.search(pattern, text)`. */
  type Matcher = (string, string) -> MatchResult

  /** Why `parse_batch` raised. */
  datatype BatchError =
    | NotFound          // no match: `None.groups()` raises AttributeError
    | InvalidPattern    // re.error
    | GroupNotMatched   // `batch += None` raises TypeError
    | NotAnInteger      // int() raises ValueError

  /** The loop `batch += group` over the groups; `None` if it reaches a group
      that did not participate. */
  function JoinGroups(groups: seq<Option<string>>): (r: Option<string>)
    ensures r.Some? <==> forall i :: 0 <= i < |groups| ==> groups[i].Some?
  {
    if groups == [] then Some("")
    else
      var init := JoinGroups(groups[..|groups| - 1]);
      var last := groups[|groups| - 1];
      if init.Some? && last.Some? then Some(init.value + last.value) else None
  }

  /** One more group extends the concatenation, or fails it. */
  lemma JoinGroupsSnoc(init: seq<Option<string>>, g: Option<string>)
    ensures JoinGroups(init + [g]) ==
      if JoinGroups(init).Some? && g.Some? then Some(JoinGroups(init).value + g.value) else None
  {
    assert (init + [g])[..|init|] == init;
  }

  /** The texts of groups that all participated. */
  function Texts(groups: seq<Option<string>>): (t: seq<string>)
    requires forall i :: 0 <= i < |groups| ==> groups[i].Some?
    ensures |t| == |groups|
    ensures forall i :: 0 <= i < |groups| ==> t[i] == groups[i].value
  {
    seq(|groups|, i requires 0 <= i < |groups| => groups[i].value)
  }

  /** The loop computes the in-order concatenation of the groups' texts. */
  lemma {:induction false} JoinGroupsIsConcat(groups: seq<Option<string>>)
    requires forall i :: 0 <= i < |groups| ==> groups[i].Some?
    ensures JoinGroups(groups) == Some(Concat(Texts(groups)))
    decreases |groups|
  {
    if groups != [] {
      var init := groups[..|groups| - 1];
      JoinGroupsIsConcat(init);
      assert Texts(groups)[..|groups| - 1] == Texts(init);
    }
  }

  /** `parse_batch` once the match is known. */
  function BatchFromMatch(m: MatchResult): (r: Result<int, BatchError>)
    ensures m.NoMatch? ==> r == Failure(NotFound)
    ensures m.BadPattern? ==> r == Failure(InvalidPattern)
    ensures m.Match? && JoinGroups(m.groups).None? ==> r == Failure(GroupNotMatched)
    ensures m.Match? && JoinGroups(m.groups).Some? ==>
      var text := JoinGroups(m.groups).value;
      && (r.Success? <==> IsIntLiteral(text))
      && (r.Success? ==> ParseInt(text) == Some(r.value))
      && (r.Failure? ==> r.error == NotAnInteger)
    ensures m.Match? && |m.groups| == 0 ==> r == Failure(NotAnInteger)
  {
    match m
    case NoMatch => Failure(NotFound)
    case BadPattern => Failure(InvalidPattern)
    case Match(groups) =>
      var joined := JoinGroups(groups);
      if joined.None? then Failure(GroupNotMatched)
      else
        var n := ParseInt(joined.value);
        if n.None? then Failure(NotAnInteger)
        else Success(n.value)
  }

  /** `parse_batch(file_url, regexp)`. */
  function ParseBatch(matcher: Matcher, fileUrl: string, regexp: string): Result<int, BatchError> {
    BatchFromMatch(matcher(regexp, fileUrl))
  }

  /** With digit-only groups, the batch is the decimal value of their
      concatenation, so an earlier group weighs more than a later one. */
  lemma BatchOfDigitGroups(m: MatchResult)
    requires m.Match? && |m.groups| > 0
    requires forall i :: 0 <= i < |m.groups| ==> m.groups[i].Some? && AllDigits(m.groups[i].value)
    requires exists i :: 0 <= i < |m.groups| && |m.groups[i].value| > 0
    ensures var text := Concat(Texts(m.groups));
      AllDigits(text) && BatchFromMatch(m) == Success(DigitsValue(text))
  {
    JoinGroupsIsConcat(m.groups);
    var text := Concat(Texts(m.groups));
    ConcatDigits(Texts(m.groups));
    var i :| 0 <= i < |m.groups| && |m.groups[i].value| > 0;
    ConcatNonEmpty(Texts(m.groups), i);
    assert Unsigned(text) == text;
  }

  lemma {:induction false} ConcatDigits(parts: seq<string>)
    requires forall i :: 0 <= i < |parts| ==> AllDigits(parts[i])
    ensures AllDigits(Concat(parts))
    decreases |parts|
  {
    if parts != [] {
      ConcatDigits(parts[..|parts| - 1]);
      AllDigitsAppend(Concat(parts[..|parts| - 1]), parts[|parts| - 1]);
    }
  }

  lemma {:induction false} ConcatNonEmpty(parts: seq<string>, i: int)
    requires 0 <= i < |parts| && |parts[i]| > 0
    ensures |Concat(parts)| > 0
    decreases |parts|
  {
    if i < |parts| - 1 {
      ConcatNonEmpty(parts[..|parts| - 1], i);
    }
  }

  /** Two digit groups: the batch is the first group shifted left by the
      width of the second, plus the second. */
  lemma BatchOfTwoGroups(a: string, b: string)
    requires AllDigits(a) && AllDigits(b) && |a + b| > 0
    ensures AllDigits(a + b)
    ensures BatchFromMatch(Match([Some(a), Some(b)])) == Success(DigitsValue(a + b))
    ensures DigitsValue(a + b) == DigitsValue(a) * Pow10(|b|) + DigitsValue(b)
  {
    BatchOfTwoDigitGroups(a, b);
    DigitsAppend(a, b);
  }

  /** Two digit groups give the value of their concatenation. */
  lemma BatchOfTwoDigitGroups(a: string, b: string)
    requires AllDigits(a) && AllDigits(b) && |a + b| > 0
    ensures AllDigits(a + b)
    ensures BatchFromMatch(Match([Some(a), Some(b)])) == Success(DigitsValue(a + b))
  {
    AllDigitsAppend(a, b);
    JoinTwoGroups(a, b);
    ParseDigits(a + b);
  }

  lemma JoinTwoGroups(a: string, b: string)
    ensures JoinGroups([Some(a), Some(b)]) == Some(a + b)
  {
    JoinGroupsSnoc([], Some(a));
    JoinGroupsSnoc([Some(a)], Some(b));
    assert [] + [Some(a)] == [Some(a)];
    assert [Some(a)] + [Some(b)] == [Some(a), Some(b)];
    assert "" + a == a;
  }

  /** A non-empty run of digits parses to its decimal value. */
  lemma ParseDigits(t: string)
    requires AllDigits(t) && |t| > 0
    ensures ParseInt(t) == Some(DigitsValue(t))
  {
    assert IsDigit(t[0]);
    assert Unsigned(t) == t;
  }

  /** The documented example: the groups "2024", "01" and "02" give the batch
      20240102. */
  lemma ParseBatchExample(matcher: Matcher)
    requires matcher("(\\d{4})(\\d{2})(\\d{2})", "file_20240102_003.csv")
             == Match([Some("2024"), Some("01"), Some("02")])
    ensures ParseBatch(matcher, "file_20240102_003.csv", "(\\d{4})(\\d{2})(\\d{2})") == Success(20240102)
  {
    JoinGroupsSnoc([], Some("2024"));
    JoinGroupsSnoc([Some("2024")], Some("01"));
    JoinGroupsSnoc([Some("2024"), Some("01")], Some("02"));
    assert [] + [Some("2024")] == [Some("2024")];
    assert [Some("2024")] + [Some("01")] == [Some("2024"), Some("01")];
    assert [Some("2024"), Some("01")] + [Some("02")] == [Some("2024"), Some("01"), Some("02")];
    assert "" + "2024" + "01" + "02" == "20240102";
    ExampleDigits();
    assert Unsigned("20240102") == "20240102";
  }

  lemma ExampleDigits()
    ensures AllDigits("20240102") && DigitsValue("20240102") == 20240102
  {
    var s := "20240102";
    DigitsSnoc(s[..0], s[0]);
    assert s[..0] + [s[0]] == s[..1];
    DigitsSnoc(s[..1], s[1]);
    assert s[..1] + [s[1]] == s[..2];
    DigitsSnoc(s[..2], s[2]);
    assert s[..2] + [s[2]] == s[..3];
    DigitsSnoc(s[..3], s[3]);
    assert s[..3] + [s[3]] == s[..4];
    DigitsSnoc(s[..4], s[4]);
    assert s[..4] + [s[4]] == s[..5];
    DigitsSnoc(s[..5], s[5]);
    assert s[..5] + [s[5]] == s[..6];
    DigitsSnoc(s[..6], s[6]);
    assert s[..6] + [s[6]] == s[..7];
    DigitsSnoc(s[..7], s[7]);
    assert s[..7] + [s[7]] == s;
  }

  /** A pattern without groups has an empty concatenation, which is not an
      integer. */
  lemma ParseBatchNoGroups(matcher: Matcher, fileUrl: string, regexp: string)
    requires matcher(regexp, fileUrl) == Match([])
    ensures ParseBatch(matcher, fileUrl, regexp) == Failure(NotAnInteger)
  {
  }

  // ---------------------------------------------------------------------
  // add_to_manifest
  // ---------------------------------------------------------------------

  /** The outcome of an entry point: the call log after it and whether it
      raised. */
  datatype Run = Run(log: seq<Call>, outcome: Outcome)

  /** The handle both entry points start from: mandatory attributes only. */
  function Fresh(base: string, src: Source): Manifest {
    New(base, src.attributes.system, src.attributes.entity, src.parameters.format)
  }

  /** The handle prepared for creating a manifest: the optional parameters
      configured in the source are copied, the batch is never set. */
  function Seeded(base: string, src: Source): (m: Manifest)
    ensures SameEndpoint(m, Fresh(base, src)) && m.id.None? && m.entries.None?
    ensures m.format == src.parameters.format && m.batch.None?
    ensures m.columns == src.parameters.columns && m.compression == src.parameters.compression
    ensures m.delim == src.parameters.delim && m.fullscanned == src.parameters.fullscanned
    ensures m.skiph == src.parameters.skiph
  {
    var p := src.parameters;
    var m0 := Fresh(base, src);
    var m1 := if p.columns.Some? then m0.(columns := p.columns) else m0;
    var m2 := if p.compression.Some? then m1.(compression := p.compression) else m1;
    var m3 := if p.delim.Some? then m2.(delim := p.delim) else m2;
    var m4 := if p.fullscanned.Some? then m3.(fullscanned := p.fullscanned) else m3;
    if p.skiph.Some? then m4.(skiph := p.skiph) else m4
  }

  /** The create request of a newly opened manifest: `format` and exactly
      the optional parameters the source configures, never a batch. */
  lemma SeededCreateBody(base: string, src: Source)
    ensures var body := CreateBody(Seeded(base, src));
      && body["format"] == Str(src.parameters.format)
      && "batch" !in body
      && ("columns" in body <==> src.parameters.columns.Some?)
      && ("compression" in body <==> src.parameters.compression.Some?)
      && ("delim" in body <==> src.parameters.delim.Some?)
      && ("fullscanned" in body <==> src.parameters.fullscanned.Some?)
      && ("skiph" in body <==> src.parameters.skiph.Some?)
  {
  }

  /** Create a manifest when none is open, otherwise fetch the last open one
      in the order the search returned them. */
  function SelectManifest(api: Api, log: seq<Call>, base: string, src: Source, open: seq<string>): (e: Effect)
    ensures open == [] ==> e == Create(api, Seeded(base, src), log)
    ensures open != [] ==> e == FetchManifest(api, Fresh(base, src), log, Some(open[|open| - 1]))
    ensures e.outcome.Done? ==> e.manifest.id.Some? && SameEndpoint(e.manifest, Fresh(base, src))
  {
    if open == [] then Create(api, Seeded(base, src), log)
    else FetchManifest(api, Fresh(base, src), log, Some(open[|open| - 1]))
  }

  /** The stored entry path: `file_url` with `path_replace` replaced when both
      rewrite keys are configured, `file_url` itself otherwise. */
  function EntryPath(fileUrl: string, a: Attributes): (path: string)
    ensures a.pathReplace.None? || a.pathReplaceWith.None? ==> path == fileUrl
  {
    if a.pathReplace.Some? && a.pathReplaceWith.Some? then
      ReplaceAll(fileUrl, a.pathReplace.value, a.pathReplaceWith.value)
    else fileUrl
  }

  /** The entry path differs from `file_url` exactly when a rewrite is
      configured, its pattern occurs in the url, and it replaces the
      pattern with something else. */
  lemma EntryPathRewritten(fileUrl: string, a: Attributes)
    ensures EntryPath(fileUrl, a) != fileUrl <==>
      && a.pathReplace.Some? && a.pathReplaceWith.Some?
      && a.pathReplace != a.pathReplaceWith
      && Occurs(fileUrl, a.pathReplace.value)
  {
    if a.pathReplace.Some? && a.pathReplaceWith.Some? {
      ReplaceUnchangedIff(fileUrl, a.pathReplace.value, a.pathReplaceWith.value);
    }
  }

  /** With both rewrite keys set, the rewrite goes left to right: the url up
      to the first occurrence of `path_replace` is kept, that occurrence
      becomes `path_replace_with`, and the rest of the url is rewritten in
      the same way. */
  lemma EntryPathFirstOccurrence(x: string, y: string, a: Attributes)
    requires a.pathReplace.Some? && a.pathReplaceWith.Some? && a.pathReplace.value != []
    requires forall i :: 0 <= i < |x| ==> !OccursAt(x + a.pathReplace.value + y, a.pathReplace.value, i)
    ensures EntryPath(x + a.pathReplace.value + y, a) == x + a.pathReplaceWith.value + EntryPath(y, a)
  {
    ReplaceAt(x, a.pathReplace.value, y, a.pathReplaceWith.value);
  }

  /** The documented rewrite example. */
  lemma EntryPathExample(a: Attributes)
    requires a.pathReplace == Some("s3://raw/") && a.pathReplaceWith == Some("s3://clean/")
    ensures EntryPath("s3://raw/a/b.csv", a) == "s3://clean/a/b.csv"
  {
    var pat, rest := "s3://raw/", "a/b.csv";
    assert pat + rest == "s3://raw/a/b.csv";
    assert !Occurs(rest, pat);
    ReplacePrefix(pat, rest, "s3://clean/");
  }

  /** The entry's batch: parsed from the original `file_url` when a pattern
      is configured; a failed parse leaves it unset rather than raising. */
  function EntryBatch(matcher: Matcher, fileUrl: string, a: Attributes): (b: Option<int>)
    ensures a.batchRegex.None? ==> b.None?
    ensures a.batchRegex.Some? ==>
      && (b.Some? <==> ParseBatch(matcher, fileUrl, a.batchRegex.value).Success?)
      && (b.Some? ==> Success(b.value) == ParseBatch(matcher, fileUrl, a.batchRegex.value))
  {
    if a.batchRegex.Some? then ParseBatch(matcher, fileUrl, a.batchRegex.value).ToOption() else None
  }

  /** The batch does not depend on the path rewrite: it is parsed from the
      url as it arrived. */
  lemma BatchIgnoresRewrite(matcher: Matcher, fileUrl: string, a: Attributes, pat: Option<string>,
                            rep: Option<string>)
    ensures EntryBatch(matcher, fileUrl, a.(pathReplace := pat, pathReplaceWith := rep))
         == EntryBatch(matcher, fileUrl, a)
  {
  }

  /** What `add_to_manifest` does once a manifest has been selected: post
      the entry to it and, for a single-file manifest, notify every open
      manifest of the entity.  Any exception ends it. */
  function AddToSelected(api: Api, matcher: Matcher, sel: Effect, fileUrl: string, src: Source,
                         base: string): (r: Run)
  {
    var a := src.attributes;
    if sel.outcome.Raised? then Run(sel.log, sel.outcome)
    else
      var added := AddEntry(api, sel.manifest, sel.log, EntryPath(fileUrl, a), EntryBatch(matcher, fileUrl, a), None);
      if added.outcome.Raised? then Run(added.log, added.outcome)
      else if a.singleFileManifest == Some(true) then NotifyManifests(api, added.log, src, base)
      else Run(added.log, Done)
  }

  /** `add_to_manifest(file_url, source, ...)`: search the open manifests,
      select one, then add the entry. */
  function AddToManifest(api: Api, matcher: Matcher, log: seq<Call>, fileUrl: string, src: Source,
                         base: string): (r: Run)
  {
    var s := SearchOpen(api, log, base, src.attributes);
    if s.result.Failure? then Run(s.log, Raised(s.result.error))
    else AddToSelected(api, matcher, SelectManifest(api, s.log, base, src, s.result.value), fileUrl, src, base)
  }

  // ---------------------------------------------------------------------
  // notify_manifests
  // ---------------------------------------------------------------------

  /** The calls of fetching and then notifying each id in turn. */
  function FetchNotifyPairs(m: Manifest, ids: seq<string>): (calls: seq<Call>)
    ensures |calls| == 2 * |ids|
  {
    if ids == [] then []
    else [FetchCall(m, ids[0]), NotifyCall(m, ids[0])] + FetchNotifyPairs(m, ids[1..])
  }

  /** The loop of `notify_manifests`: fetch each id, then notify the handle;
      the first exception ends the loop. */
  function NotifyEach(api: Api, m: Manifest, log: seq<Call>, ids: seq<string>): (e: Effect)
    ensures |log| <= |e.log| && e.log[..|log|] == log
    ensures SameEndpoint(e.manifest, m)
    ensures e.outcome != Raised(NoManifestId)
    decreases |ids|
  {
    if ids == [] then Effect(m, log, Done)
    else
      var f := FetchManifest(api, m, log, Some(ids[0]));
      if f.outcome.Raised? then
        NotifyRound(api, m, log, ids[0], f, Notify(api, f.manifest, f.log, None));
        f
      else
        var n := Notify(api, f.manifest, f.log, None);
        NotifyRound(api, m, log, ids[0], f, n);
        if n.outcome.Raised? then n
        else
          var e := NotifyEach(api, n.manifest, n.log, ids[1..]);
          PrefixTrans(log, n.log, e.log);
          e
  }

  /** `calls` are two per id: the fetch of the k-th id at position 2k,
      then a notify; so there are as many notifies as ids. */
  predicate Paired(m: Manifest, ids: seq<string>, calls: seq<Call>) {
    && |calls| == 2 * |ids|
    && Count(calls, IsNotify) == |ids|
    && forall k :: 0 <= k < |ids| ==> calls[2 * k] == FetchCall(m, ids[k]) && IsNotify(calls[2 * k + 1])
  }

  /** A loop that completes has sent two calls per id: the fetch of the
      k-th id, then a notify. */
  lemma {:induction false} NotifyEachCompleted(api: Api, m: Manifest, log: seq<Call>, ids: seq<string>, e: Effect)
    requires e == NotifyEach(api, m, log, ids) && e.outcome.Done?
    ensures |e.log| == |log| + 2 * |ids|
    ensures Paired(m, ids, e.log[|log|..])
    decreases |ids|
  {
    if ids == [] {
      assert e.log[|log|..] == [];
    } else {
      var f := FetchManifest(api, m, log, Some(ids[0]));
      var n := Notify(api, f.manifest, f.log, None);
      NotifyRound(api, m, log, ids[0], f, n);
      var rest := NotifyEach(api, n.manifest, n.log, ids[1..]);
      assert e == rest;
      NotifyEachCompleted(api, n.manifest, n.log, ids[1..], rest);
      var c := NotifyCall(f.manifest, f.manifest.id.value);
      PairAfter(log, FetchCall(m, ids[0]), c, e.log);
      NotifyEachStep(m, n.manifest, ids, c, e.log[|n.log|..]);
    }
  }

  /** One round of the loop: the fetch of `id`, then the notify of the
      handle, neither of which can lack an id. */
  lemma NotifyRound(api: Api, m: Manifest, log: seq<Call>, id: string, f: Effect, n: Effect)
    requires f == FetchManifest(api, m, log, Some(id))
    requires n == Notify(api, f.manifest, f.log, None)
    ensures f.log == log + [FetchCall(m, id)] && SameEndpoint(f.manifest, m)
    ensures f.outcome != Raised(NoManifestId)
    ensures f.outcome.Done? ==>
      && f.manifest.id.Some?
      && n.log == log + [FetchCall(m, id), NotifyCall(f.manifest, f.manifest.id.value)]
      && SameEndpoint(n.manifest, m)
      && n.outcome != Raised(NoManifestId)
  {
  }

  /** A log that extends `log + [a, b]` continues, after `log`, with `a`
      and `b`. */
  lemma PairAfter(log: seq<Call>, a: Call, b: Call, x: seq<Call>)
    requires |log| + 2 <= |x| && x[..|log| + 2] == log + [a, b]
    ensures x[|log|..] == [a, b] + x[|log| + 2..]
  {
    assert x[|log|] == (log + [a, b])[|log|];
    assert x[|log| + 1] == (log + [a, b])[|log| + 1];
  }

  lemma PrefixTrans(a: seq<Call>, b: seq<Call>, c: seq<Call>)
    requires |a| <= |b| && b[..|a|] == a
    requires |b| <= |c| && c[..|b|] == b
    ensures |a| <= |c| && c[..|a|] == a
  {
    assert c[..|a|] == c[..|b|][..|a|];
  }

  /** One more round in front of a paired run is a paired run. */
  lemma NotifyEachStep(m: Manifest, m': Manifest, ids: seq<string>, c: Call, rest: seq<Call>)
    requires ids != [] && SameEndpoint(m', m) && IsNotify(c)
    requires Paired(m', ids[1..], rest)
    ensures Paired(m, ids, [FetchCall(m, ids[0]), c] + rest)
  {
    var calls := [FetchCall(m, ids[0]), c] + rest;
    CountAppend([FetchCall(m, ids[0])], [c], IsNotify);
    CountAppend([FetchCall(m, ids[0]), c], rest, IsNotify);
    forall k | 0 <= k < |ids|
      ensures calls[2 * k] == FetchCall(m, ids[k]) && IsNotify(calls[2 * k + 1])
    {
      if k > 0 {
        assert ids[k] == ids[1..][k - 1];
        assert calls[2 * k] == rest[2 * (k - 1)];
      }
    }
  }

  /** The loop sends nothing but fetches and notifies. */
  lemma {:induction false} NotifyEachKinds(api: Api, m: Manifest, log: seq<Call>, ids: seq<string>)
    ensures var e := NotifyEach(api, m, log, ids);
      forall i :: |log| <= i < |e.log| ==> IsFetch(e.log[i]) || IsNotify(e.log[i])
    decreases |ids|
  {
    if ids != [] {
      var f := FetchManifest(api, m, log, Some(ids[0]));
      if f.outcome.Done? {
        var n := Notify(api, f.manifest, f.log, None);
        if n.outcome.Done? {
          NotifyEachKinds(api, n.manifest, n.log, ids[1..]);
          var e := NotifyEach(api, n.manifest, n.log, ids[1..]);
          assert var e' := NotifyEach(api, n.manifest, n.log, ids[1..]);
            forall i :: |n.log| <= i < |e'.log| ==> IsFetch(e'.log[i]) || IsNotify(e'.log[i]);
          assert NotifyEach(api, m, log, ids) == e;
          assert n.log == log + [FetchCall(m, ids[0]), NotifyCall(f.manifest, f.manifest.id.value)];
          assert e.log[..|n.log|] == n.log;
          forall i | |log| <= i < |e.log|
            ensures IsFetch(e.log[i]) || IsNotify(e.log[i])
          {
            if i == |log| {
              assert e.log[i] == n.log[i] == FetchCall(m, ids[0]);
            } else if i == |log| + 1 {
              assert e.log[i] == n.log[i] == NotifyCall(f.manifest, f.manifest.id.value);
            }
          }
        }
      }
    }
  }

  /** What `notify_manifests` does once the search has answered: raise its
      error, or fetch and notify each id found. */
  function NotifyFound(api: Api, s: Lookup, src: Source, base: string): (r: Run)
    ensures |s.log| <= |r.log| && r.log[..|s.log|] == s.log
    ensures forall i :: |s.log| <= i < |r.log| ==> IsFetch(r.log[i]) || IsNotify(r.log[i])
    ensures s.result.Success? ==> r.outcome != Raised(NoManifestId)
  {
    if s.result.Failure? then Run(s.log, Raised(s.result.error))
    else if s.result.value == [] then Run(s.log, Done)
    else
      var e := NotifyEach(api, Fresh(base, src), s.log, s.result.value);
      NotifyEachKinds(api, Fresh(base, src), s.log, s.result.value);
      assert var e' := NotifyEach(api, Fresh(base, src), s.log, s.result.value);
        forall i :: |s.log| <= i < |e'.log| ==> IsFetch(e'.log[i]) || IsNotify(e'.log[i]);
      Run(e.log, e.outcome)
  }

  /** `notify_manifests(source, ...)`: the search, then only fetches and
      notifies. */
  function NotifyManifests(api: Api, log: seq<Call>, src: Source, base: string): (r: Run)
    ensures |r.log| > |log| && r.log[..|log| + 1] == log + [OpenCall(base, src.attributes)]
    ensures forall i :: |log| < i < |r.log| ==> IsFetch(r.log[i]) || IsNotify(r.log[i])
    ensures r.outcome != Raised(NoManifestId)
  {
    var s := SearchOpen(api, log, base, src.attributes);
    var r := NotifyFound(api, s, src, base);
    assert r.log[..|log| + 1] == log + [OpenCall(base, src.attributes)] by {
      assert r.log[..|s.log|] == s.log;
    }
    r
  }
}

=== FILE: notifier_props.dfy ===
/**
  Properties of the two notifier entry points taken as a whole: which calls
  `notify_manifests` and `add_to_manifest` send, in which order, and which
  configuration they ignore.
 */
module NotifierProperties {
  import opened Common
  import opened NotifyApi
  import opened ManifestHandle
  import opened Notifier

  // ---------------------------------------------------------------------
  // notify_manifests
  // ---------------------------------------------------------------------

  /** The fetch and notify calls depend only on the handle's endpoint. */
  lemma {:induction false} PairsEndpoint(m: Manifest, m': Manifest, ids: seq<string>)
    requires SameEndpoint(m, m')
    ensures FetchNotifyPairs(m, ids) == FetchNotifyPairs(m', ids)
    decreases |ids|
  {
    if ids != [] {
      PairsEndpoint(m, m', ids[1..]);
    }
  }

  /** The notify calls among the pairs name exactly the ids, in order. */
  lemma {:induction false} PairsNotifyIds(m: Manifest, ids: seq<string>)
    ensures NotifiedIds(FetchNotifyPairs(m, ids)) == ids
    decreases |ids|
  {
    if ids != [] {
      var head := [FetchCall(m, ids[0]), NotifyCall(m, ids[0])];
      PairsNotifyIds(m, ids[1..]);
      NotifiedIdsAppend(head, FetchNotifyPairs(m, ids[1..]));
      assert head[..1] == [FetchCall(m, ids[0])];
      assert [FetchCall(m, ids[0])][..0] == [];
      assert NotifiedIds([FetchCall(m, ids[0])]) == [];
      assert NotifiedIds(head) == [ids[0]];
      assert ids == [ids[0]] + ids[1..];
    }
  }

  /** Against a service that echoes ids, a fetch that completes leaves the
      handle holding the id asked for. */
  lemma EchoedFetch(api: Api, m: Manifest, log: seq<Call>, id: string)
    requires EchoesIds(api)
    ensures var f := FetchManifest(api, m, log, Some(id));
      && f.log == log + [FetchCall(m, id)]
      && SameEndpoint(f.manifest, m)
      && (f.outcome.Done? ==> f.manifest.id == Some(id))
  {
    var f := FetchManifest(api, m, log, Some(id));
    if f.outcome.Done? {
      assert api(log, FetchCall(m, id)).Reply? && api(log, FetchCall(m, id)).payload.ManifestObject?;
    }
  }

  /** A log that starts with `log + [c]` continues, after `log`, with `c`. */
  lemma SuffixAfter(log: seq<Call>, c: Call, x: seq<Call>)
    requires |log| < |x| && x[..|log| + 1] == log + [c]
    ensures x[|log|..] == [c] + x[|log| + 1..]
  {
    assert x[|log|] == (log + [c])[|log|];
  }

  /** Counting after `log` in a log that continues with a call `c` that
      does not count is counting after `log + [c]`. */
  lemma CountAfter(log: seq<Call>, c: Call, x: seq<Call>, p: Call -> bool)
    requires |log| < |x| && x[..|log| + 1] == log + [c] && !p(c)
    ensures Count(x[|log|..], p) == Count(x[|log| + 1..], p)
  {
    SuffixAfter(log, c, x);
    CountAppend([c], x[|log| + 1..], p);
    assert [c][..0] == [];
  }

  /** Counting after `log` in a log that continues with two calls that do
      not count is counting after those two. */
  lemma CountPastTwo(log: seq<Call>, mid: seq<Call>, last: seq<Call>, p: Call -> bool)
    requires |mid| == |log| + 2 && mid[..|log|] == log
    requires |mid| <= |last| && last[..|mid|] == mid
    requires !p(mid[|log|]) && !p(mid[|log| + 1])
    ensures Count(last[|log|..], p) == Count(last[|mid|..], p)
  {
    var head := last[|log|..|mid|];
    assert head == [mid[|log|], mid[|log| + 1]];
    assert last[|log|..] == head + last[|mid|..];
    CountNone(head, p);
    CountAppend(head, last[|mid|..], p);
  }

  /** One round of the loop in sequence terms: a log that extends
      `log + head` by a prefix of `rest` extends `log` by a prefix of
      `head + rest`. */
  lemma PrefixStep(log: seq<Call>, head: seq<Call>, mid: seq<Call>, last: seq<Call>, rest: seq<Call>)
    requires mid == log + head
    requires |mid| <= |last| && last[..|mid|] == mid
    requires last[|mid|..] <= rest
    ensures last[|log|..] <= head + rest
    ensures last == mid + rest ==> last == log + (head + rest)
  {
    assert last[|log|..] == head + last[|mid|..];
  }

  /** Against a service that answers a fetch with the manifest asked for,
      the loop sends the fetch and notify of each id in turn: all of them
      when it completes, a prefix of them when an exception ends it. */
  lemma {:induction false} NotifyEachEchoed(api: Api, m: Manifest, log: seq<Call>, ids: seq<string>)
    requires EchoesIds(api)
    ensures var e := NotifyEach(api, m, log, ids);
      && e.log[|log|..] <= FetchNotifyPairs(m, ids)
      && (e.outcome.Done? ==> e.log == log + FetchNotifyPairs(m, ids))
    decreases |ids|
  {
    if ids != [] {
      var head := [FetchCall(m, ids[0]), NotifyCall(m, ids[0])];
      var f := FetchManifest(api, m, log, Some(ids[0]));
      EchoedFetch(api, m, log, ids[0]);
      if f.outcome.Done? {
        var n := Notify(api, f.manifest, f.log, None);
        assert n.log == log + head;
        if n.outcome.Done? {
          NotifyEachEchoed(api, n.manifest, n.log, ids[1..]);
          PairsEndpoint(n.manifest, m, ids[1..]);
          var e := NotifyEach(api, n.manifest, n.log, ids[1..]);
          assert e.log[|n.log|..] <= FetchNotifyPairs(m, ids[1..]);
          assert e.outcome.Done? ==> e.log == n.log + FetchNotifyPairs(m, ids[1..]);
          PrefixStep(log, head, n.log, e.log, FetchNotifyPairs(m, ids[1..]));
        }
      }
    }
  }

  /** What follows a search: its error when it failed; nothing when it
      found no manifest; otherwise, when it completes, a fetch of every id
      found, in the order found, and one notify per id. */
  lemma NotifyFoundShape(api: Api, s: Lookup, src: Source, base: string)
    ensures var r := NotifyFound(api, s, src, base);
      && (s.result.Failure? ==> r == Run(s.log, Raised(s.result.error)))
      && (s.result == Success([]) ==> r == Run(s.log, Done))
      && (s.result.Success? && r.outcome.Done? ==>
            var ids := s.result.value;
            && |r.log| == |s.log| + 2 * |ids|
            && Count(r.log[|s.log|..], IsNotify) == |ids|
            && forall k :: 0 <= k < |ids| ==> r.log[|s.log| + 2 * k] == FetchCall(Fresh(base, src), ids[k]))
  {
    var r := NotifyFound(api, s, src, base);
    if s.result.Success? && s.result.value == [] {
      assert r.log[|s.log|..] == [];
    } else if s.result.Success? && r.outcome.Done? {
      var e := NotifyEach(api, Fresh(base, src), s.log, s.result.value);
      NotifyEachCompleted(api, Fresh(base, src), s.log, s.result.value, e);
    }
  }

  /** `notify_manifests`: a failed search raises after the one call, and no
      open manifest means nothing else is sent. */
  lemma NotifyManifestsNothingOpen(api: Api, log: seq<Call>, src: Source, base: string)
    ensures var s := SearchOpen(api, log, base, src.attributes);
      var r := NotifyManifests(api, log, src, base);
      && (s.result.Failure? ==> r == Run(log + [OpenCall(base, src.attributes)], Raised(s.result.error)))
      && (s.result == Success([]) ==> r == Run(log + [OpenCall(base, src.attributes)], Done))
  {
    NotifyFoundShape(api, SearchOpen(api, log, base, src.attributes), src, base);
  }

  /** `notify_manifests` that completes: every open manifest was fetched in
      the order the search returned it, and as many notifies as open
      manifests were sent. */
  lemma NotifyManifestsCompleted(api: Api, log: seq<Call>, src: Source, base: string)
    ensures var s := SearchOpen(api, log, base, src.attributes);
      var r := NotifyManifests(api, log, src, base);
      s.result.Success? && r.outcome.Done? ==>
        var ids := s.result.value;
        && |r.log| == |log| + 1 + 2 * |ids|
        && Count(r.log[|log|..], IsNotify) == |ids|
        && forall k :: 0 <= k < |ids| ==> r.log[|log| + 1 + 2 * k] == FetchCall(Fresh(base, src), ids[k])
  {
    var open := OpenCall(base, src.attributes);
    var s := SearchOpen(api, log, base, src.attributes);
    var r := NotifyFound(api, s, src, base);
    assert NotifyManifests(api, log, src, base) == r;
    if s.result.Success? && r.outcome.Done? {
      var ids := s.result.value;
      NotifyFoundShape(api, s, src, base);
      assert var r' := NotifyFound(api, s, src, base);
        forall k :: 0 <= k < |ids| ==> r'.log[|s.log| + 2 * k] == FetchCall(Fresh(base, src), ids[k]);
      CountAfter(log, open, r.log, IsNotify);
      forall k | 0 <= k < |ids|
        ensures r.log[|log| + 1 + 2 * k] == FetchCall(Fresh(base, src), ids[k])
      {
        assert |log| + 1 + 2 * k == |s.log| + 2 * k;
      }
    }
  }

  /** What follows a search, against a service that echoes ids: the fetch
      and notify of each id found, in order, all of them when it completes. */
  lemma NotifyFoundEchoed(api: Api, s: Lookup, src: Source, base: string)
    requires EchoesIds(api)
    ensures var r := NotifyFound(api, s, src, base);
      s.result.Success? ==>
        && r.log[|s.log|..] <= FetchNotifyPairs(Fresh(base, src), s.result.value)
        && (r.outcome.Done? ==> r.log == s.log + FetchNotifyPairs(Fresh(base, src), s.result.value))
  {
    var r := NotifyFound(api, s, src, base);
    if s.result.Success? {
      if s.result.value == [] {
        assert r.log[|s.log|..] == [];
      } else {
        NotifyEachEchoed(api, Fresh(base, src), s.log, s.result.value);
      }
    }
  }

  /** `notify_manifests` against a service that echoes ids: it sends the
      search and then the fetch and notify of each open manifest, in order;
      when it completes, the notified ids are exactly the open ones. */
  lemma NotifyManifestsEchoed(api: Api, log: seq<Call>, src: Source, base: string)
    requires EchoesIds(api)
    ensures var s := SearchOpen(api, log, base, src.attributes);
      var r := NotifyManifests(api, log, src, base);
      s.result.Success? ==>
        var expected := log + [OpenCall(base, src.attributes)] + FetchNotifyPairs(Fresh(base, src), s.result.value);
        && r.log <= expected
        && (r.outcome.Done? ==> r.log == expected && NotifiedIds(r.log[|log|..]) == s.result.value)
  {
    var open := OpenCall(base, src.attributes);
    var s := SearchOpen(api, log, base, src.attributes);
    var r := NotifyFound(api, s, src, base);
    assert NotifyManifests(api, log, src, base) == r;
    if s.result.Success? {
      var ids := s.result.value;
      var pairs := FetchNotifyPairs(Fresh(base, src), ids);
      NotifyFoundEchoed(api, s, src, base);
      PrefixStep(log, [open], s.log, r.log, pairs);
      if r.outcome.Done? {
        assert r.log[|log|..] == [open] + pairs;
        NotifiedIdsAppend([open], pairs);
        assert [open][..0] == [];
        PairsNotifyIds(Fresh(base, src), ids);
      }
    }
  }

  // ---------------------------------------------------------------------
  // add_to_manifest
  // ---------------------------------------------------------------------

  /** The entry call `add_to_manifest` sends to the selected manifest: the
      possibly rewritten path and the batch parsed from the original url,
      never a content length. */
  function EntryCall(matcher: Matcher, sel: Effect, fileUrl: string, a: Attributes): Call
    requires sel.manifest.id.Some?
  {
    EntryPostCall(sel.manifest, sel.manifest.id.value, EntryBody(EntryPath(fileUrl, a), EntryBatch(matcher, fileUrl, a), None))
  }

  /** After the selection: a selection that raised ends the run; otherwise
      exactly one entry post goes out, followed only by what
      `notify_manifests` sends, and only for a single-file manifest whose
      entry post was answered. */
  lemma AddToSelectedShape(api: Api, matcher: Matcher, sel: Effect, fileUrl: string, src: Source, base: string)
    requires sel.outcome.Done? ==> sel.manifest.id.Some?
    ensures var r := AddToSelected(api, matcher, sel, fileUrl, src, base);
      && |sel.log| <= |r.log| && r.log[..|sel.log|] == sel.log
      && (sel.outcome.Raised? ==> r == Run(sel.log, sel.outcome))
      && (sel.outcome.Done? ==>
            var c := EntryCall(matcher, sel, fileUrl, src.attributes);
            && |sel.log| < |r.log| && r.log[|sel.log|] == c
            && (api(sel.log, c).Fault? ==> r == Run(sel.log + [c], Raised(TransportFailed)))
            && (api(sel.log, c).Reply? && src.attributes.singleFileManifest != Some(true) ==>
                  r == Run(sel.log + [c], Done))
            && (api(sel.log, c).Reply? && src.attributes.singleFileManifest == Some(true) ==>
                  r == NotifyManifests(api, sel.log + [c], src, base)))
  {
    if sel.outcome.Done? {
      var a := src.attributes;
      var added := AddEntry(api, sel.manifest, sel.log, EntryPath(fileUrl, a), EntryBatch(matcher, fileUrl, a), None);
      PostedToKnown(api, sel.manifest, sel.log, EntryPath(fileUrl, a), EntryBatch(matcher, fileUrl, a), added);
    }
  }

  /** `add_entry` on a handle with an id: the post, and the outcome of its
      exchange. */
  lemma PostedToKnown(api: Api, m: Manifest, log: seq<Call>, path: string, batch: Option<int>, e: Effect)
    requires m.id.Some? && e == AddEntry(api, m, log, path, batch, None)
    ensures var c := EntryPostCall(m, m.id.value, EntryBody(path, batch, None));
      && e.manifest == m && e.log == log + [c]
      && (api(log, c).Reply? ==> e.outcome == Done)
      && (api(log, c).Fault? ==> e.outcome == Raised(TransportFailed))
  {
  }

  /** Everything `add_to_manifest` sends after the entry post is a search,
      a fetch or a notify. */
  lemma AddToSelectedTail(api: Api, matcher: Matcher, sel: Effect, fileUrl: string, src: Source, base: string)
    requires sel.outcome.Done? ==> sel.manifest.id.Some?
    ensures var r := AddToSelected(api, matcher, sel, fileUrl, src, base);
      forall i :: |sel.log| < i < |r.log| ==>
        (i == |sel.log| + 1 && IsSearch(r.log[i])) || IsFetch(r.log[i]) || IsNotify(r.log[i])
  {
    var r := AddToSelected(api, matcher, sel, fileUrl, src, base);
    AddToSelectedShape(api, matcher, sel, fileUrl, src, base);
    if sel.outcome.Done? {
      var c := EntryCall(matcher, sel, fileUrl, src.attributes);
      if api(sel.log, c).Reply? && src.attributes.singleFileManifest == Some(true) {
        NotifyAfterPostKinds(api, sel.log, c, src, base, r);
      }
    }
  }

  /** `notify_manifests` after the entry post `c`: its search comes right
      after `c`, then only fetches and notifies. */
  lemma NotifyAfterPostKinds(api: Api, log: seq<Call>, c: Call, src: Source, base: string, r: Run)
    requires r == NotifyManifests(api, log + [c], src, base)
    ensures |log| + 1 < |r.log|
    ensures forall i :: |log| < i < |r.log| ==>
      (i == |log| + 1 && IsSearch(r.log[i])) || IsFetch(r.log[i]) || IsNotify(r.log[i])
  {
    var open := OpenCall(base, src.attributes);
    assert r.log[|log| + 1] == open by {
      assert r.log[..|log| + 2] == log + [c] + [open];
    }
  }

  /** Where each call of `add_to_manifest` sits in the log: the search at
      `|log|`, the selection (create or fetch) at `|log| + 1`, the entry post
      at `|log| + 2`, then at most a second search and fetches and
      notifies. */
  lemma AddLayout(api: Api, matcher: Matcher, log: seq<Call>, fileUrl: string, src: Source, base: string)
    ensures var s := SearchOpen(api, log, base, src.attributes);
      var r := AddToManifest(api, matcher, log, fileUrl, src, base);
      && |log| < |r.log| && r.log[..|log| + 1] == log + [OpenCall(base, src.attributes)]
      && (s.result.Failure? ==> r == Run(s.log, Raised(s.result.error)))
      && (s.result.Success? ==>
            var sel := SelectManifest(api, s.log, base, src, s.result.value);
            && |sel.log| == |log| + 2 && |sel.log| <= |r.log| && r.log[..|sel.log|] == sel.log
            && (sel.outcome.Raised? ==> r == Run(sel.log, sel.outcome))
            && (sel.outcome.Done? ==>
                  |sel.log| < |r.log| && r.log[|sel.log|] == EntryCall(matcher, sel, fileUrl, src.attributes))
            && r == AddToSelected(api, matcher, sel, fileUrl, src, base))
  {
    var s := SearchOpen(api, log, base, src.attributes);
    if s.result.Success? {
      var sel := SelectManifest(api, s.log, base, src, s.result.value);
      AddToSelectedShape(api, matcher, sel, fileUrl, src, base);
      var r := AddToSelected(api, matcher, sel, fileUrl, src, base);
      assert r.log[..|log| + 1] == sel.log[..|log| + 1];
    }
  }

  /** Every call of `add_to_manifest` after the entry post is a search, a
      fetch or a notify, and only the first of them can be a search. */
  lemma AddTail(api: Api, matcher: Matcher, log: seq<Call>, fileUrl: string, src: Source, base: string)
    ensures var r := AddToManifest(api, matcher, log, fileUrl, src, base);
      forall i :: |log| + 2 < i < |r.log| ==>
        (i == |log| + 3 && IsSearch(r.log[i])) || IsFetch(r.log[i]) || IsNotify(r.log[i])
  {
    var s := SearchOpen(api, log, base, src.attributes);
    AddLayout(api, matcher, log, fileUrl, src, base);
    if s.result.Success? {
      var sel := SelectManifest(api, s.log, base, src, s.result.value);
      AddToSelectedTail(api, matcher, sel, fileUrl, src, base);
      assert var r' := AddToSelected(api, matcher, sel, fileUrl, src, base);
        forall i :: |sel.log| < i < |r'.log| ==>
          (i == |sel.log| + 1 && IsSearch(r'.log[i])) || IsFetch(r'.log[i]) || IsNotify(r'.log[i]);
    }
  }

  /** No call of `add_to_manifest` other than the selection at `|log| + 1`
      creates a manifest. */
  lemma AddCreatesOnlyInSelection(api: Api, matcher: Matcher, log: seq<Call>, fileUrl: string, src: Source,
                                  base: string)
    ensures var r := AddToManifest(api, matcher, log, fileUrl, src, base);
      forall i :: |log| <= i < |r.log| && i != |log| + 1 ==> !IsCreate(r.log[i])
  {
    var s := SearchOpen(api, log, base, src.attributes);
    var r := AddToManifest(api, matcher, log, fileUrl, src, base);
    AddLayout(api, matcher, log, fileUrl, src, base);
    AddTail(api, matcher, log, fileUrl, src, base);
    assert var r' := AddToManifest(api, matcher, log, fileUrl, src, base);
      forall i :: |log| + 2 < i < |r'.log| ==>
        (i == |log| + 3 && IsSearch(r'.log[i])) || IsFetch(r'.log[i]) || IsNotify(r'.log[i]);
    forall i | |log| <= i < |r.log| && i != |log| + 1
      ensures !IsCreate(r.log[i])
    {
      if i == |log| {
        assert r.log[i] == (log + [OpenCall(base, src.attributes)])[i];
      } else if i == |log| + 2 {
        var sel := SelectManifest(api, s.log, base, src, s.result.value);
        assert sel.outcome.Done?;
        assert r.log[i] == EntryCall(matcher, sel, fileUrl, src.attributes);
      }
    }
  }

  /** With no open manifest, `add_to_manifest` creates one from the
      source's parameters right after the search, and creates nothing
      else. */
  lemma AddCreatesWhenNoneOpen(api: Api, matcher: Matcher, log: seq<Call>, fileUrl: string, src: Source,
                               base: string)
    requires SearchOpen(api, log, base, src.attributes).result == Success([])
    ensures var r := AddToManifest(api, matcher, log, fileUrl, src, base);
      && |log| + 2 <= |r.log| && r.log[..|log|] == log
      && r.log[|log|] == OpenCall(base, src.attributes)
      && r.log[|log| + 1] == CreateCall(Seeded(base, src))
      && Count(r.log[|log|..], IsCreate) == 1
  {
    var s := SearchOpen(api, log, base, src.attributes);
    var r := AddToManifest(api, matcher, log, fileUrl, src, base);
    AddLayout(api, matcher, log, fileUrl, src, base);
    var sel := SelectManifest(api, s.log, base, src, []);
    assert sel.log == s.log + [CreateCall(Seeded(base, src))];
    assert r.log[|log| + 1] == sel.log[|log| + 1];
    assert r.log[|log|] == (log + [OpenCall(base, src.attributes)])[|log|];
    assert r.log[..|log|] == r.log[..|log| + 1][..|log|] == (log + [OpenCall(base, src.attributes)])[..|log|];
    AddCreatesOnlyInSelection(api, matcher, log, fileUrl, src, base);
    var suffix := r.log[|log|..];
    forall i | 0 <= i < |suffix| && i != 1
      ensures !IsCreate(suffix[i])
    {
      assert suffix[i] == r.log[|log| + i];
    }
    CountSingle(suffix, IsCreate, 1);
  }

  /** With open manifests, `add_to_manifest` fetches the last one the search
      returned and creates nothing; against a service that echoes ids, the
      entry is posted to that manifest. */
  lemma AddReusesLastOpen(api: Api, matcher: Matcher, log: seq<Call>, fileUrl: string, src: Source,
                          base: string)
    requires var s := SearchOpen(api, log, base, src.attributes); s.result.Success? && s.result.value != []
    ensures var ids := SearchOpen(api, log, base, src.attributes).result.value;
      var r := AddToManifest(api, matcher, log, fileUrl, src, base);
      var a := src.attributes;
      && |log| + 2 <= |r.log|
      && r.log[|log| + 1] == FetchCall(Fresh(base, src), ids[|ids| - 1])
      && Count(r.log[|log|..], IsCreate) == 0
      && (EchoesIds(api) && |log| + 2 < |r.log| ==>
            r.log[|log| + 2] == EntryPostCall(Fresh(base, src), ids[|ids| - 1],
                                              EntryBody(EntryPath(fileUrl, a), EntryBatch(matcher, fileUrl, a), None)))
  {
    var s := SearchOpen(api, log, base, src.attributes);
    var ids := s.result.value;
    var r := AddToManifest(api, matcher, log, fileUrl, src, base);
    AddLayout(api, matcher, log, fileUrl, src, base);
    var sel := SelectManifest(api, s.log, base, src, ids);
    assert sel.log == s.log + [FetchCall(Fresh(base, src), ids[|ids| - 1])];
    assert r.log[|log| + 1] == sel.log[|log| + 1];
    AddCreatesOnlyInSelection(api, matcher, log, fileUrl, src, base);
    var suffix := r.log[|log|..];
    forall i | 0 <= i < |suffix|
      ensures !IsCreate(suffix[i])
    {
      assert suffix[i] == r.log[|log| + i];
    }
    CountNone(suffix, IsCreate);
    if EchoesIds(api) && |log| + 2 < |r.log| {
      assert sel.outcome.Done?;
      EchoedFetch(api, Fresh(base, src), s.log, ids[|ids| - 1]);
    }
  }

  /** After the selection: one entry post when the selection completed,
      none otherwise. */
  lemma AddToSelectedPosts(api: Api, matcher: Matcher, sel: Effect, fileUrl: string, src: Source, base: string)
    requires sel.outcome.Done? ==> sel.manifest.id.Some?
    ensures var r := AddToSelected(api, matcher, sel, fileUrl, src, base);
      && |sel.log| <= |r.log|
      && Count(r.log[|sel.log|..], IsEntryPost) == (if sel.outcome.Done? then 1 else 0)
  {
    var r := AddToSelected(api, matcher, sel, fileUrl, src, base);
    AddToSelectedShape(api, matcher, sel, fileUrl, src, base);
    var suffix := r.log[|sel.log|..];
    if sel.outcome.Raised? {
      assert suffix == [];
    } else {
      AddToSelectedTail(api, matcher, sel, fileUrl, src, base);
      assert var r' := AddToSelected(api, matcher, sel, fileUrl, src, base);
        forall i :: |sel.log| < i < |r'.log| ==>
          (i == |sel.log| + 1 && IsSearch(r'.log[i])) || IsFetch(r'.log[i]) || IsNotify(r'.log[i]);
      forall i | 0 <= i < |suffix| && i != 0
        ensures !IsEntryPost(suffix[i])
      {
        assert suffix[i] == r.log[|sel.log| + i];
      }
      CountSingle(suffix, IsEntryPost, 0);
    }
  }

  /** The search and the selection are not entry posts. */
  lemma SelectionIsNoEntryPost(api: Api, log: seq<Call>, src: Source, base: string, s: Lookup, sel: Effect)
    requires s == SearchOpen(api, log, base, src.attributes) && s.result.Success?
    requires sel == SelectManifest(api, s.log, base, src, s.result.value)
    ensures |sel.log| == |log| + 2 && sel.log[..|log|] == log
    ensures !IsEntryPost(sel.log[|log|]) && !IsEntryPost(sel.log[|log| + 1])
    ensures !IsNotify(sel.log[|log|]) && !IsNotify(sel.log[|log| + 1])
  {
    assert sel.log[..|log|] == s.log[..|log|];
  }

  /** `add_to_manifest` posts exactly one entry when the search and the
      selection succeed, and none otherwise; the entry carries the rewritten
      path and the batch parsed from the url, and is posted whether or not
      the batch could be parsed. */
  lemma AddPostsOneEntry(api: Api, matcher: Matcher, log: seq<Call>, fileUrl: string, src: Source,
                         base: string)
    ensures var s := SearchOpen(api, log, base, src.attributes);
      var r := AddToManifest(api, matcher, log, fileUrl, src, base);
      var a := src.attributes;
      var posted := s.result.Success? && SelectManifest(api, s.log, base, src, s.result.value).outcome.Done?;
      && Count(r.log[|log|..], IsEntryPost) == (if posted then 1 else 0)
      && (posted ==>
            && |log| + 2 < |r.log| && IsEntryPost(r.log[|log| + 2])
            && r.log[|log| + 2].body == Obj(EntryBody(EntryPath(fileUrl, a), EntryBatch(matcher, fileUrl, a), None)))
  {
    var s := SearchOpen(api, log, base, src.attributes);
    var r := AddToManifest(api, matcher, log, fileUrl, src, base);
    AddLayout(api, matcher, log, fileUrl, src, base);
    if s.result.Failure? {
      assert r.log[|log|..] == [OpenCall(base, src.attributes)];
      CountNone(r.log[|log|..], IsEntryPost);
    } else {
      var sel := SelectManifest(api, s.log, base, src, s.result.value);
      SelectionIsNoEntryPost(api, log, src, base, s, sel);
      AddToSelectedPosts(api, matcher, sel, fileUrl, src, base);
      CountPastTwo(log, sel.log, r.log, IsEntryPost);
    }
  }

  /** After the selection, without the single-file flag: at most the entry
      post, and no notify. */
  lemma AddToSelectedNoNotify(api: Api, matcher: Matcher, sel: Effect, fileUrl: string, src: Source, base: string)
    requires sel.outcome.Done? ==> sel.manifest.id.Some?
    requires src.attributes.singleFileManifest != Some(true)
    ensures var r := AddToSelected(api, matcher, sel, fileUrl, src, base);
      && |sel.log| <= |r.log| <= |sel.log| + 1
      && Count(r.log[|sel.log|..], IsNotify) == 0
  {
    var r := AddToSelected(api, matcher, sel, fileUrl, src, base);
    AddToSelectedShape(api, matcher, sel, fileUrl, src, base);
    var suffix := r.log[|sel.log|..];
    if sel.outcome.Done? {
      assert suffix == [EntryCall(matcher, sel, fileUrl, src.attributes)];
    } else {
      assert suffix == [];
    }
    CountNone(suffix, IsNotify);
  }

  /** Only a single-file manifest leads `add_to_manifest` to notify: without
      that flag nothing follows the entry post; with it, an answered entry
      post is followed by `notify_manifests` on the same source. */
  lemma AddNotifiesOnlySingleFile(api: Api, matcher: Matcher, log: seq<Call>, fileUrl: string, src: Source,
                                  base: string)
    ensures var r := AddToManifest(api, matcher, log, fileUrl, src, base);
      && (src.attributes.singleFileManifest != Some(true) ==>
            |r.log| <= |log| + 3 && Count(r.log[|log|..], IsNotify) == 0)
      && (src.attributes.singleFileManifest == Some(true) && |log| + 2 < |r.log| &&
          api(r.log[..|log| + 2], r.log[|log| + 2]).Reply? ==>
            r == NotifyManifests(api, r.log[..|log| + 3], src, base))
  {
    var s := SearchOpen(api, log, base, src.attributes);
    var r := AddToManifest(api, matcher, log, fileUrl, src, base);
    AddLayout(api, matcher, log, fileUrl, src, base);
    if s.result.Failure? {
      assert r.log[|log|..] == [OpenCall(base, src.attributes)];
      CountNone(r.log[|log|..], IsNotify);
    } else {
      var sel := SelectManifest(api, s.log, base, src, s.result.value);
      SelectionIsNoEntryPost(api, log, src, base, s, sel);
      if src.attributes.singleFileManifest != Some(true) {
        AddToSelectedNoNotify(api, matcher, sel, fileUrl, src, base);
        CountPastTwo(log, sel.log, r.log, IsNotify);
      } else {
        AddToSelectedSingleFile(api, matcher, sel, fileUrl, src, base);
      }
    }
  }

  /** After the selection, with the single-file flag: an answered entry
      post is followed by `notify_manifests` on the log up to that post. */
  lemma AddToSelectedSingleFile(api: Api, matcher: Matcher, sel: Effect, fileUrl: string, src: Source,
                                base: string)
    requires sel.outcome.Done? ==> sel.manifest.id.Some?
    requires src.attributes.singleFileManifest == Some(true)
    ensures var r := AddToSelected(api, matcher, sel, fileUrl, src, base);
      && |sel.log| <= |r.log| && r.log[..|sel.log|] == sel.log
      && (|sel.log| < |r.log| && api(sel.log, r.log[|sel.log|]).Reply? ==>
            r == NotifyManifests(api, r.log[..|sel.log| + 1], src, base))
  {
    var r := AddToSelected(api, matcher, sel, fileUrl, src, base);
    AddToSelectedShape(api, matcher, sel, fileUrl, src, base);
    if sel.outcome.Done? {
      var c := EntryCall(matcher, sel, fileUrl, src.attributes);
      if api(sel.log, c).Reply? {
        SnocPrefix(sel.log, c, r.log);
      }
    }
  }

  /** A log that extends `log` and holds `c` right after it extends
      `log + [c]`. */
  lemma SnocPrefix(log: seq<Call>, c: Call, x: seq<Call>)
    requires |log| < |x| && x[..|log|] == log && x[|log|] == c
    ensures x[..|log| + 1] == log + [c]
  {
    assert x[..|log| + 1] == x[..|log|] + [x[|log|]];
  }

  /** `notify_manifests` reads only the source entity and the format of
      its source. */
  lemma NotifyManifestsReads(api: Api, log: seq<Call>, src: Source, src': Source, base: string)
    requires src'.attributes.system == src.attributes.system && src'.attributes.entity == src.attributes.entity
    requires src'.parameters.format == src.parameters.format
    ensures NotifyManifests(api, log, src', base) == NotifyManifests(api, log, src, base)
  {
    assert Fresh(base, src') == Fresh(base, src);
    assert SearchOpen(api, log, base, src'.attributes) == SearchOpen(api, log, base, src.attributes);
  }

  /** After the selection, `add_to_manifest` reads only the entry path, the
      batch, the single-file flag and what `notify_manifests` reads. */
  lemma AddToSelectedReads(api: Api, matcher: Matcher, sel: Effect, fileUrl: string, src: Source, src': Source,
                           base: string)
    requires src'.attributes.system == src.attributes.system && src'.attributes.entity == src.attributes.entity
    requires src'.parameters.format == src.parameters.format
    requires EntryPath(fileUrl, src'.attributes) == EntryPath(fileUrl, src.attributes)
    requires EntryBatch(matcher, fileUrl, src'.attributes) == EntryBatch(matcher, fileUrl, src.attributes)
    requires src'.attributes.singleFileManifest == src.attributes.singleFileManifest
    ensures AddToSelected(api, matcher, sel, fileUrl, src', base) == AddToSelected(api, matcher, sel, fileUrl, src, base)
  {
    if sel.outcome.Done? {
      var a := src.attributes;
      var added := AddEntry(api, sel.manifest, sel.log, EntryPath(fileUrl, a), EntryBatch(matcher, fileUrl, a), None);
      NotifyManifestsReads(api, added.log, src, src', base);
    }
  }

  /** `add_to_manifest` depends on its source only through the source
      entity, the manifest parameters, the entry path, the batch and the
      single-file flag: two sources that agree on those send the same calls
      and end the same way. */
  lemma AddToManifestReads(api: Api, matcher: Matcher, log: seq<Call>, fileUrl: string, src: Source, src': Source,
                           base: string)
    requires src'.attributes.system == src.attributes.system && src'.attributes.entity == src.attributes.entity
    requires src'.parameters == src.parameters
    requires EntryPath(fileUrl, src'.attributes) == EntryPath(fileUrl, src.attributes)
    requires EntryBatch(matcher, fileUrl, src'.attributes) == EntryBatch(matcher, fileUrl, src.attributes)
    requires src'.attributes.singleFileManifest == src.attributes.singleFileManifest
    ensures AddToManifest(api, matcher, log, fileUrl, src', base) == AddToManifest(api, matcher, log, fileUrl, src, base)
  {
    var s := SearchOpen(api, log, base, src.attributes);
    assert SearchOpen(api, log, base, src'.attributes) == s;
    if s.result.Success? {
      assert Seeded(base, src') == Seeded(base, src);
      assert Fresh(base, src') == Fresh(base, src);
      var sel := SelectManifest(api, s.log, base, src, s.result.value);
      assert SelectManifest(api, s.log, base, src', s.result.value) == sel;
      AddToSelectedReads(api, matcher, sel, fileUrl, src, src', base);
    }
  }

  /** `max_files_in_manifest` is read nowhere: changing it changes no call
      and no outcome of `add_to_manifest`. */
  lemma AddIgnoresMaxFiles(api: Api, matcher: Matcher, log: seq<Call>, fileUrl: string, src: Source,
                           base: string, limit: Option<int>)
    ensures var src' := src.(attributes := src.attributes.(maxFilesInManifest := limit));
      AddToManifest(api, matcher, log, fileUrl, src', base) == AddToManifest(api, matcher, log, fileUrl, src, base)
  {
    var src' := src.(attributes := src.attributes.(maxFilesInManifest := limit));
    AddToManifestReads(api, matcher, log, fileUrl, src, src', base);
  }

  /** A batch pattern that fails to parse is as good as none: the failure is
      swallowed, and `add_to_manifest` sends the same calls and ends the
      same way as without `batch_from_file_path_regex`. */
  lemma AddFailedParseIsNoBatch(api: Api, matcher: Matcher, log: seq<Call>, fileUrl: string, src: Source,
                                base: string)
    requires src.attributes.batchRegex.Some?
    requires ParseBatch(matcher, fileUrl, src.attributes.batchRegex.value).Failure?
    ensures var src' := src.(attributes := src.attributes.(batchRegex := None));
      AddToManifest(api, matcher, log, fileUrl, src', base) == AddToManifest(api, matcher, log, fileUrl, src, base)
  {
    var src' := src.(attributes := src.attributes.(batchRegex := None));
    AddToManifestReads(api, matcher, log, fileUrl, src, src', base);
  }
}

=== FILE: notify_api.dfy ===
/**
  The ADE Notify API as the client sees it: the requests it sends, the URLs
  they go to, and the replies that come back.

  The remote service is a black box.  It is modelled as a total function
  `Api` from the calls already made (the append-only call log) and the call
  being made to the reply; any deterministic server, however it keeps its
  state, is such a function.
 */
module NotifyApi {
  import opened Common

  // ---------------------------------------------------------------------
  // Request bodies
  // ---------------------------------------------------------------------

  /** A JSON value held by one key of a request body. */
  datatype Value = Str(s: string) | Int(i: int) | Bool(b: bool) | StrList(items: seq<string>)

  /** A JSON object, i.e. a Python dict with string keys. */
  type Object = map<string, Value>

  /** What is serialised into the request.  `Null` is `json.dumps(None)`,
      sent by the handle's calls that pass no body; `Absent` is a request
      sent with no data at all (the manifest search). */
  datatype Body = Absent | Null | Obj(fields: Object) | ObjList(objects: seq<Object>)

  // ---------------------------------------------------------------------
  // Requests
  // ---------------------------------------------------------------------

  datatype Method = Get | Post | Put

  /** The resource below `.../source-entities/{entity}/manifests`. */
  datatype Resource =
    | Collection(stateFilter: Option<string>)  // the collection, optionally `?state=`
    | Item(id: string)                          // `/{id}`
    | ItemEntries(id: string)                   // `/{id}/entries`
    | ItemNotify(id: string)                    // `/{id}/notify`

  datatype Target = Target(base: string, system: string, entity: string, resource: Resource)

  datatype Call = Call(verb: Method, target: Target, body: Body)

  const TenantPath: string := "/tenants/local/installations/local/environments/local/source-systems/"

  /** `{base}/tenants/local/.../source-systems/{system}/source-entities/{entity}/manifests` */
  function CollectionUrl(base: string, system: string, entity: string): string {
    base + TenantPath + system + "/source-entities/" + entity + "/manifests"
  }

  /** The URL a request is sent to: the collection url of the target's
      source entity, followed by the resource's own suffix. */
  function Url(t: Target): (u: string)
    ensures var c := CollectionUrl(t.base, t.system, t.entity);
      && |c| <= |u| && u[..|c|] == c
      && (t.resource == Collection(None) ==> u == c)
      && (t.resource.Collection? && t.resource.stateFilter.Some? ==> u == c + "?state=" + t.resource.stateFilter.value)
      && (t.resource.Item? ==> u == c + "/" + t.resource.id)
      && (t.resource.ItemEntries? ==> u == c + "/" + t.resource.id + "/entries")
      && (t.resource.ItemNotify? ==> u == c + "/" + t.resource.id + "/notify")
  {
    var c := CollectionUrl(t.base, t.system, t.entity);
    match t.resource
    case Collection(None) => c
    case Collection(Some(state)) => c + "?state=" + state
    case Item(id) => c + "/" + id
    case ItemEntries(id) => c + "/" + id + "/entries"
    case ItemNotify(id) => c + "/" + id + "/notify"
  }

  /** Distinct resources of one source entity have distinct urls, as long
      as their ids hold no `/`. */
  lemma UrlDistinct(t: Target, t': Target)
    requires t.base == t'.base && t.system == t'.system && t.entity == t'.entity
    requires WellFormedResource(t.resource) && WellFormedResource(t'.resource)
    requires t.resource != t'.resource
    ensures Url(t) != Url(t')
  {
    UrlSuffix(t);
    UrlSuffix(t');
    SuffixRoundTrip(t.resource);
    SuffixRoundTrip(t'.resource);
  }

  lemma UrlSuffix(t: Target)
    ensures var c := CollectionUrl(t.base, t.system, t.entity);
      |c| <= |Url(t)| && Url(t)[|c|..] == Suffix(t.resource)
  {
    var c := CollectionUrl(t.base, t.system, t.entity);
    assert Url(t) == c + Suffix(t.resource);
  }

  /** Ids hold no `/`. */
  predicate WellFormedResource(r: Resource) {
    !r.Collection? ==> NoSlash(r.id)
  }

  predicate NoSlash(id: string) {
    forall i :: 0 <= i < |id| ==> id[i] != '/'
  }

  /** What follows the collection url. */
  function Suffix(r: Resource): string {
    match r
    case Collection(None) => ""
    case Collection(Some(state)) => "?state=" + state
    case Item(id) => "/" + id
    case ItemEntries(id) => "/" + id + "/entries"
    case ItemNotify(id) => "/" + id + "/notify"
  }

  /** The resource a suffix addresses, if it is one the client builds. */
  function ParseSuffix(s: string): Option<Resource> {
    if s == [] then Some(Collection(None))
    else if |s| >= 7 && s[..7] == "?state=" then Some(Collection(Some(s[7..])))
    else if s[0] == '/' then
      var k := SlashFree(s[1..]);
      var id, rest := s[1..1 + k], s[1 + k..];
      if rest == [] then Some(Item(id))
      else if rest == "/entries" then Some(ItemEntries(id))
      else if rest == "/notify" then Some(ItemNotify(id))
      else None
    else None
  }

  /** Reading a suffix back gives the resource it was built from. */
  lemma SuffixRoundTrip(r: Resource)
    requires WellFormedResource(r)
    ensures ParseSuffix(Suffix(r)) == Some(r)
  {
    var s := Suffix(r);
    match r {
      case Collection(None) =>
      case Collection(Some(state)) =>
        assert s[..7] == "?state=";
        assert s[7..] == state;
      case Item(id) =>
        IdRun(id, "");
        assert s == "/" + id + "";
      case ItemEntries(id) =>
        IdRun(id, "/entries");
      case ItemNotify(id) =>
        IdRun(id, "/notify");
    }
  }

  /** The length of the longest `/`-free prefix. */
  function SlashFree(s: string): (n: nat)
    ensures n <= |s|
  {
    if s == [] || s[0] == '/' then 0 else 1 + SlashFree(s[1..])
  }

  lemma {:induction false} SlashFreeOf(id: string, rest: string)
    requires NoSlash(id) && (rest == [] || rest[0] == '/')
    ensures SlashFree(id + rest) == |id|
    decreases |id|
  {
    if id == [] {
      assert id + rest == rest;
    } else {
      assert (id + rest)[1..] == id[1..] + rest;
      SlashFreeOf(id[1..], rest);
    }
  }

  /** In `"/" + id + rest`, the id is the run up to the next `/`. */
  lemma IdRun(id: string, rest: string)
    requires NoSlash(id) && (rest == [] || rest[0] == '/')
    ensures var s := "/" + id + rest;
      && s[0] == '/' && !(|s| >= 7 && s[..7] == "?state=")
      && SlashFree(s[1..]) == |id| && s[1..1 + |id|] == id && s[1 + |id|..] == rest
  {
    var s := "/" + id + rest;
    assert s[1..] == id + rest;
    SlashFreeOf(id, rest);
    assert s[1..1 + |id|] == id;
    assert s[1 + |id|..] == rest;
    assert |s| >= 7 ==> s[..7][0] == '/';
  }

  // ---------------------------------------------------------------------
  // Replies
  // ---------------------------------------------------------------------

  /** One manifest object as the API returns it. */
  datatype Record = Record(
    id: string,
    state: string,
    created: string,
    modified: string,
    format: string,
    batch: Option<int>,
    columns: Option<seq<string>>,
    compression: Option<string>,
    delim: Option<string>,
    fullscanned: Option<bool>,
    skiph: Option<int>)

  /** The decoded body of a reply.  `OtherJson` is any document that is not
      one of the shapes the client reads (an error object, an empty ack),
      and the model reads it as one in which a manifest key is missing.  A
      manifest with all its keys whose values have other JSON types than the
      `Record` fields (a `null`, a string batch, a fractional `skiph`) is
      one that Python stores unchecked; it has no constructor of its own and
      can only be written as `OtherJson`, on which the model raises.
      `Undecodable` is a body that is not JSON at all (an empty body, an
      HTML error page), on which `response.json()` raises. */
  datatype Payload =
    | ManifestObject(record: Record)
    | ManifestArray(records: seq<Record>)
    | EntryArray(entries: seq<Object>)
    | OtherJson
    | Undecodable

  /** `Fault` is an exception raised by the HTTP session: a connection
      error, or, for an `https://` base url, a GET or PUT that still
      receives one of the statuses 429, 500, 502, 503 or 504 after the three
      retries the session's `https://` adapter is mounted with.  Every other
      reply that arrives, a POST's included whatever its status and any
      reply over `http://`, is a `Reply`. */
  datatype Response = Fault | Reply(payload: Payload)

  /** The remote service: the reply to a call, given every call before it. */
  type Api = (seq<Call>, Call) -> Response

  /** Send one call: it is appended to the log and answered by the service. */
  function Exchange(api: Api, log: seq<Call>, c: Call): (x: (seq<Call>, Response))
    ensures x.0 == log + [c] && x.1 == api(log, c)
  {
    (log + [c], api(log, c))
  }

  /** The service returns, for a GET of one manifest, the manifest with the
      id that was asked for. */
  ghost predicate EchoesIds(api: Api) {
    forall log: seq<Call>, c: Call ::
      c.verb == Get && c.target.resource.Item? &&
      api(log, c).Reply? && api(log, c).payload.ManifestObject? ==>
        api(log, c).payload.record.id == c.target.resource.id
  }

  // ---------------------------------------------------------------------
  // Counting calls in a log
  // ---------------------------------------------------------------------

  predicate IsCreate(c: Call) {
    c.verb == Post && c.target.resource == Collection(None)
  }

  predicate IsSearch(c: Call) {
    c.verb == Get && c.target.resource.Collection? && c.target.resource.stateFilter.Some?
  }

  predicate IsFetch(c: Call) {
    c.verb == Get && c.target.resource.Item?
  }

  predicate IsNotify(c: Call) {
    c.verb == Post && c.target.resource.ItemNotify?
  }

  predicate IsEntryPost(c: Call) {
    c.verb == Post && c.target.resource.ItemEntries?
  }

  /** How many calls of the log satisfy `p`. */
  function Count(log: seq<Call>, p: Call -> bool): (n: nat)
    ensures n <= |log|
  {
    if log == [] then 0
    else Count(log[..|log| - 1], p) + (if p(log[|log| - 1]) then 1 else 0)
  }

  lemma {:induction false} CountAppend(a: seq<Call>, b: seq<Call>, p: Call -> bool)
    ensures Count(a + b, p) == Count(a, p) + Count(b, p)
    decreases |b|
  {
    if b == [] {
      assert a + b == a;
    } else {
      var b' := b[..|b| - 1];
      assert (a + b)[..|a + b| - 1] == a + b';
      assert (a + b)[|a + b| - 1] == b[|b| - 1];
      CountAppend(a, b', p);
    }
  }

  /** A log none of whose calls satisfies `p` counts zero. */
  lemma {:induction false} CountNone(log: seq<Call>, p: Call -> bool)
    requires forall i :: 0 <= i < |log| ==> !p(log[i])
    ensures Count(log, p) == 0
    decreases |log|
  {
    if log != [] {
      CountNone(log[..|log| - 1], p);
    }
  }

  /** A log with exactly one call satisfying `p` counts one. */
  lemma {:induction false} CountSingle(log: seq<Call>, p: Call -> bool, j: int)
    requires 0 <= j < |log| && p(log[j])
    requires forall i :: 0 <= i < |log| && i != j ==> !p(log[i])
    ensures Count(log, p) == 1
    decreases |log|
  {
    var init := log[..|log| - 1];
    if j == |log| - 1 {
      CountNone(init, p);
    } else {
      CountSingle(init, p, j);
    }
  }

  /** The ids of the manifests notified by the log, in order. */
  function NotifiedIds(log: seq<Call>): seq<string> {
    if log == [] then []
    else
      var c := log[|log| - 1];
      NotifiedIds(log[..|log| - 1]) + (if IsNotify(c) then [c.target.resource.id] else [])
  }

  lemma {:induction false} NotifiedIdsAppend(a: seq<Call>, b: seq<Call>)
    ensures NotifiedIds(a + b) == NotifiedIds(a) + NotifiedIds(b)
    decreases |b|
  {
    if b == [] {
      assert a + b == a;
    } else {
      var b' := b[..|b| - 1];
      assert (a + b)[..|a + b| - 1] == a + b';
      assert (a + b)[|a + b| - 1] == b[|b| - 1];
      NotifiedIdsAppend(a, b');
    }
  }

  /** Every notified id is the target of a notify call, so the list of
      notified ids is exactly as long as the number of notify calls. */
  lemma {:induction false} NotifiedIdsCount(log: seq<Call>)
    ensures |NotifiedIds(log)| == Count(log, IsNotify)
    decreases |log|
  {
    if log != [] {
      NotifiedIdsCount(log[..|log| - 1]);
    }
  }
}

=== FILE: pystr.dfy ===
/**
  The pieces of Python's string behaviour the notifier depends on:
  `str.upper` on the search state, `"".join`-style concatenation of regex
  groups, `int()` on the concatenation, and `str.replace` for the path
  rewrite.
 */
module PyStr {
  import opened Common

  // ---------------------------------------------------------------------
  // str.upper (ASCII letters)
  // ---------------------------------------------------------------------

  predicate IsLower(c: char) {
    'a' <= c <= 'z'
  }

  function UpperChar(c: char): (u: char)
    ensures !IsLower(u)
    ensures IsLower(c) ==> u as int == c as int - 32
    ensures !IsLower(c) ==> u == c
  {
    if IsLower(c) then (c as int - 32) as char else c
  }

  /** `s.upper()`: every ASCII lower-case letter is replaced by its capital. */
  function Upper(s: string): (r: string)
    ensures |r| == |s|
    ensures forall i :: 0 <= i < |s| ==> r[i] == UpperChar(s[i])
  {
    if s == [] then [] else [UpperChar(s[0])] + Upper(s[1..])
  }

  /** Upper-casing twice is upper-casing once, and a word without lower-case
      letters (such as "OPEN") is left alone. */
  lemma UpperIdempotent(s: string)
    ensures Upper(Upper(s)) == Upper(s)
    ensures (forall i :: 0 <= i < |s| ==> !IsLower(s[i])) ==> Upper(s) == s
  {
  }

  // ---------------------------------------------------------------------
  // Concatenation of a list of strings
  // ---------------------------------------------------------------------

  /** `"".join(parts)`. */
  function Concat(parts: seq<string>): string {
    if parts == [] then [] else Concat(parts[..|parts| - 1]) + parts[|parts| - 1]
  }

  /** Concatenation is a monoid homomorphism: it can be split anywhere. */
  lemma {:induction false} ConcatAppend(a: seq<string>, b: seq<string>)
    ensures Concat(a + b) == Concat(a) + Concat(b)
    decreases |b|
  {
    if b == [] {
      assert a + b == a;
    } else {
      var b' := b[..|b| - 1];
      assert (a + b)[..|a + b| - 1] == a + b';
      assert (a + b)[|a + b| - 1] == b[|b| - 1];
      ConcatAppend(a, b');
    }
  }

  /** The length of a concatenation is the sum of the lengths. */
  function TotalLength(parts: seq<string>): nat {
    if parts == [] then 0 else TotalLength(parts[..|parts| - 1]) + |parts[|parts| - 1]|
  }

  lemma {:induction false} ConcatLength(parts: seq<string>)
    ensures |Concat(parts)| == TotalLength(parts)
    decreases |parts|
  {
    if parts != [] {
      ConcatLength(parts[..|parts| - 1]);
    }
  }

  // ---------------------------------------------------------------------
  // Decimal digits
  // ---------------------------------------------------------------------

  predicate IsDigit(c: char) {
    '0' <= c <= '9'
  }

  predicate AllDigits(s: string) {
    forall i :: 0 <= i < |s| ==> IsDigit(s[i])
  }

  function DigitValue(c: char): (d: nat)
    requires IsDigit(c)
    ensures d < 10
  {
    c as int - '0' as int
  }

  function DigitChar(d: nat): (c: char)
    requires d < 10
    ensures IsDigit(c) && DigitValue(c) == d
  {
    ('0' as int + d) as char
  }

  function Pow10(k: nat): (p: nat)
    ensures p >= 1
  {
    if k == 0 then 1 else 10 * Pow10(k - 1)
  }

  /** The value of a string of decimal digits, most significant first. */
  function DigitsValue(s: string): (n: nat)
    requires AllDigits(s)
    ensures n < Pow10(|s|)
  {
    if s == [] then 0 else DigitsValue(s[..|s| - 1]) * 10 + DigitValue(s[|s| - 1])
  }

  /** One more digit on the right: ten times the value plus the digit. */
  lemma DigitsSnoc(s: string, c: char)
    requires AllDigits(s) && IsDigit(c)
    ensures AllDigits(s + [c])
    ensures DigitsValue(s + [c]) == DigitsValue(s) * 10 + DigitValue(c)
  {
    assert (s + [c])[..|s|] == s;
  }

  /** The shortest decimal rendering of a natural number (`str(n)`). */
  function Decimal(n: nat): (s: string)
    ensures |s| > 0 && AllDigits(s)
    ensures s[0] == '0' ==> s == "0"
  {
    if n < 10 then [DigitChar(n)] else Decimal(n / 10) + [DigitChar(n % 10)]
  }

  /** A digit string with no superfluous leading zero. */
  predicate Canonical(s: string) {
    |s| > 0 && AllDigits(s) && (s[0] == '0' ==> |s| == 1)
  }

  /** Reading back a rendered number gives the number. */
  lemma {:induction false} DigitsOfDecimal(n: nat)
    ensures DigitsValue(Decimal(n)) == n
    decreases n
  {
    if n >= 10 {
      DigitsOfDecimal(n / 10);
      var s := Decimal(n);
      assert s[..|s| - 1] == Decimal(n / 10);
    }
  }

  lemma {:induction false} LeadingDigitPositive(s: string)
    requires AllDigits(s) && |s| > 0 && s[0] != '0'
    ensures DigitsValue(s) >= 1
    decreases |s|
  {
    if |s| > 1 {
      LeadingDigitPositive(s[..|s| - 1]);
    }
  }

  /** Rendering the value of a canonical digit string gives the string back. */
  lemma {:induction false} DecimalOfDigits(s: string)
    requires Canonical(s)
    ensures Decimal(DigitsValue(s)) == s
    decreases |s|
  {
    if |s| > 1 {
      var init := s[..|s| - 1];
      LeadingDigitPositive(init);
      DecimalOfDigits(init);
      var n := DigitsValue(s);
      assert n / 10 == DigitsValue(init);
      assert n % 10 == DigitValue(s[|s| - 1]);
      assert s == init + [s[|s| - 1]];
    }
  }

  lemma AllDigitsAppend(a: string, b: string)
    requires AllDigits(a) && AllDigits(b)
    ensures AllDigits(a + b)
  {
    forall i | 0 <= i < |a + b|
      ensures IsDigit((a + b)[i])
    {
      if i >= |a| {
        assert (a + b)[i] == b[i - |a|];
      }
    }
  }

  lemma ShiftArith(v: int, x: int, p: int, y: int, d: int, w: int, q: int)
    requires v == (x * p + y) * 10 + d && w == y * 10 + d && q == p * 10
    ensures v == x * q + w
  {
  }

  /** Appending digits shifts the value left by their number. */
  lemma {:induction false} DigitsAppend(a: string, b: string)
    requires AllDigits(a) && AllDigits(b)
    ensures AllDigits(a + b)
    ensures DigitsValue(a + b) == DigitsValue(a) * Pow10(|b|) + DigitsValue(b)
    decreases |b|
  {
    AllDigitsAppend(a, b);
    if b == [] {
      assert a + b == a;
    } else {
      var b' := b[..|b| - 1];
      assert b == b' + [b[|b| - 1]];
      DigitsAppend(a, b');
      DigitsAppendSnoc(a, b', b[|b| - 1]);
    }
  }

  /** The inductive step of `DigitsAppend`: one more digit on the right. */
  lemma DigitsAppendSnoc(a: string, b: string, c: char)
    requires AllDigits(a) && AllDigits(b) && IsDigit(c) && AllDigits(a + b)
    requires DigitsValue(a + b) == DigitsValue(a) * Pow10(|b|) + DigitsValue(b)
    ensures AllDigits(b + [c]) && AllDigits(a + (b + [c]))
    ensures DigitsValue(a + (b + [c])) == DigitsValue(a) * Pow10(|b + [c]|) + DigitsValue(b + [c])
  {
    assert a + (b + [c]) == (a + b) + [c];
    DigitsSnoc(a + b, c);
    DigitsSnoc(b, c);
    ShiftArith(DigitsValue(a + (b + [c])), DigitsValue(a), Pow10(|b|), DigitsValue(b), DigitValue(c),
               DigitsValue(b + [c]), Pow10(|b + [c]|));
  }

  // ---------------------------------------------------------------------
  // int() on a string
  // ---------------------------------------------------------------------

  /** The string without one leading sign character, if it has one. */
  function Unsigned(s: string): (d: string)
    ensures |d| <= |s|
  {
    if |s| > 0 && (s[0] == '+' || s[0] == '-') then s[1..] else s
  }

  /** What `int(s)` accepts in this model: an optional sign, then at least
      one ASCII digit. */
  predicate IsIntLiteral(s: string) {
    var d := Unsigned(s);
    |d| > 0 && AllDigits(d)
  }

  /** `int(s)`; `None` stands for the `ValueError` Python raises. */
  function ParseInt(s: string): (r: Option<int>)
    ensures r.Some? <==> IsIntLiteral(s)
    ensures r.Some? && |s| > 0 && s[0] == '-' ==> r.value == -(DigitsValue(s[1..]) as int)
    ensures r.Some? && (|s| == 0 || s[0] != '-') ==> r.value == DigitsValue(Unsigned(s))
  {
    var d := Unsigned(s);
    if |d| == 0 || !AllDigits(d) then None
    else if s[0] == '-' then Some(-(DigitsValue(d) as int))
    else Some(DigitsValue(d))
  }

  /** `str(i)`. */
  function ShowInt(i: int): (s: string)
    ensures IsIntLiteral(s)
  {
    if i < 0 then "-" + Decimal(-i) else Decimal(i)
  }

  /** `int(str(i)) == i` for every integer. */
  lemma ParseShow(i: int)
    ensures ParseInt(ShowInt(i)) == Some(i)
  {
    if i < 0 {
      DigitsOfDecimal(-i);
      assert ShowInt(i)[1..] == Decimal(-i);
    } else {
      DigitsOfDecimal(i);
    }
  }

  /** `str(int(s)) == s` for a canonical unsigned digit string. */
  lemma ShowParse(s: string)
    requires Canonical(s)
    ensures ParseInt(s).Some? && ShowInt(ParseInt(s).value) == s
  {
    DecimalOfDigits(s);
  }

  // ---------------------------------------------------------------------
  // str.replace
  // ---------------------------------------------------------------------

  /** `pat` occurs in `s` starting at index `i`. */
  predicate OccursAt(s: string, pat: string, i: int) {
    0 <= i && i + |pat| <= |s| && s[i..i + |pat|] == pat
  }

  predicate Occurs(s: string, pat: string) {
    exists i | 0 <= i <= |s| :: OccursAt(s, pat, i)
  }

  /** `s.replace("", rep)`: Python inserts `rep` before every character and
      once more at the end. */
  function Interleave(s: string, rep: string): (r: string)
    ensures |r| == |s| + (|s| + 1) * |rep|
  {
    if s == [] then rep else rep + [s[0]] + Interleave(s[1..], rep)
  }

  /** `s.replace(pat, rep)`: every non-overlapping occurrence of `pat`,
      scanning left to right, is replaced by `rep`. */
  function ReplaceAll(s: string, pat: string, rep: string): string
    decreases |s|
  {
    if pat == [] then Interleave(s, rep)
    else if |s| < |pat| then s
    else if s[..|pat|] == pat then rep + ReplaceAll(s[|pat|..], pat, rep)
    else [s[0]] + ReplaceAll(s[1..], pat, rep)
  }

  /** `rep` followed by each character of `s`, one part per character. */
  function Gaps(s: string, rep: string): (parts: seq<string>)
    ensures |parts| == |s| && forall i :: 0 <= i < |s| ==> parts[i] == rep + [s[i]]
  {
    seq(|s|, i requires 0 <= i < |s| => rep + [s[i]])
  }

  /** `s.replace("", rep)` is `rep` before each character of `s`, in order,
      and `rep` once more at the end. */
  lemma {:induction false} InterleaveParts(s: string, rep: string)
    ensures Interleave(s, rep) == Concat(Gaps(s, rep)) + rep
    decreases |s|
  {
    if s != [] {
      var p, rest := rep + [s[0]], Gaps(s[1..], rep);
      InterleaveParts(s[1..], rep);
      assert Gaps(s, rep) == [p] + rest;
      ConcatAppend([p], rest);
      ConcatOne(p);
    }
  }

  lemma ConcatOne(p: string)
    ensures Concat([p]) == p
  {
    assert [p][..0] == [];
  }

  /** The left-to-right scan of `s.replace(pat, rep)`: the text before the
      first occurrence of `pat` is kept, the occurrence becomes `rep`, and the
      scan goes on after it.  With `ReplaceAbsent` for the end of the scan,
      this pins down the replacement of every non-overlapping occurrence. */
  lemma {:induction false} ReplaceAt(x: string, pat: string, y: string, rep: string)
    requires pat != []
    requires forall i :: 0 <= i < |x| ==> !OccursAt(x + pat + y, pat, i)
    ensures ReplaceAll(x + pat + y, pat, rep) == x + rep + ReplaceAll(y, pat, rep)
    decreases |x|
  {
    if x == [] {
      ReplaceHere(pat, y, rep);
    } else {
      var s := x + pat + y;
      NoEarlierOccurrence(x, pat, y);
      ReplaceAt(x[1..], pat, y, rep);
      assert s[1..] == x[1..] + pat + y;
      ReplaceSkipInto(s, pat, rep, x, rep + ReplaceAll(y, pat, rep));
    }
  }

  lemma ReplaceSkipInto(s: string, pat: string, rep: string, x: string, w: string)
    requires pat != [] && |s| >= |pat| && !OccursAt(s, pat, 0)
    requires x != [] && s[0] == x[0] && ReplaceAll(s[1..], pat, rep) == x[1..] + w
    ensures ReplaceAll(s, pat, rep) == x + w
  {
    ReplaceSkip(s, pat, rep);
    assert x == [x[0]] + x[1..];
  }

  lemma ReplaceHere(pat: string, y: string, rep: string)
    requires pat != []
    ensures ReplaceAll(pat + y, pat, rep) == rep + ReplaceAll(y, pat, rep)
  {
    var s := pat + y;
    assert s[..|pat|] == pat && s[|pat|..] == y;
  }

  lemma ReplaceSkip(s: string, pat: string, rep: string)
    requires pat != [] && |s| >= |pat| && !OccursAt(s, pat, 0)
    ensures ReplaceAll(s, pat, rep) == [s[0]] + ReplaceAll(s[1..], pat, rep)
  {
    assert s[..|pat|] != pat;
  }

  lemma NoEarlierOccurrence(x: string, pat: string, y: string)
    requires x != []
    requires forall i :: 0 <= i < |x| ==> !OccursAt(x + pat + y, pat, i)
    ensures forall i :: 0 <= i < |x| - 1 ==> !OccursAt(x[1..] + pat + y, pat, i)
  {
    var s := x + pat + y;
    assert s[1..] == x[1..] + pat + y;
    forall i | 0 <= i < |x| - 1 ensures !OccursAt(x[1..] + pat + y, pat, i) {
      assert !OccursAt(s, pat, i + 1);
      if i + |pat| <= |s[1..]| {
        assert s[i + 1..i + 1 + |pat|] == s[1..][i..i + |pat|];
      }
    }
  }

  /** Replacing a pattern by itself changes nothing. */
  lemma {:induction false} ReplaceBySelf(s: string, pat: string)
    ensures ReplaceAll(s, pat, pat) == s
    decreases |s|
  {
    if pat == [] {
      InterleaveEmpty(s);
    } else if |s| < |pat| {
    } else if s[..|pat|] == pat {
      ReplaceBySelf(s[|pat|..], pat);
      assert s == pat + s[|pat|..];
    } else {
      ReplaceBySelf(s[1..], pat);
      assert s == [s[0]] + s[1..];
    }
  }

  lemma {:induction false} InterleaveEmpty(s: string)
    ensures Interleave(s, "") == s
    decreases |s|
  {
    if s != [] {
      InterleaveEmpty(s[1..]);
      assert s == [s[0]] + s[1..];
    }
  }

  /** A string in which the pattern does not occur is returned unchanged. */
  lemma {:induction false} ReplaceAbsent(s: string, pat: string, rep: string)
    requires pat != [] && !Occurs(s, pat)
    ensures ReplaceAll(s, pat, rep) == s
    decreases |s|
  {
    if |s| < |pat| {
    } else {
      assert !OccursAt(s, pat, 0);
      assert s[..|pat|] != pat;
      assert !Occurs(s[1..], pat) by {
        forall i | OccursAt(s[1..], pat, i)
          ensures false
        {
          assert s[1..][i..i + |pat|] == s[i + 1..i + 1 + |pat|];
          assert OccursAt(s, pat, i + 1);
        }
      }
      ReplaceAbsent(s[1..], pat, rep);
      assert s == [s[0]] + s[1..];
    }
  }

  /** With a non-empty pattern, a replacement no longer than the pattern never
      lengthens the string, and one no shorter never shortens it. */
  lemma {:induction false} ReplaceLength(s: string, pat: string, rep: string)
    requires pat != []
    ensures |rep| <= |pat| ==> |ReplaceAll(s, pat, rep)| <= |s|
    ensures |rep| >= |pat| ==> |ReplaceAll(s, pat, rep)| >= |s|
    decreases |s|
  {
    if |s| < |pat| {
    } else if s[..|pat|] == pat {
      ReplaceLength(s[|pat|..], pat, rep);
    } else {
      ReplaceLength(s[1..], pat, rep);
    }
  }

  /** A string that contains a pattern comes back changed when the pattern is
      replaced by something else. */
  lemma {:induction false} ReplacePresent(s: string, pat: string, rep: string)
    requires Occurs(s, pat) && rep != pat
    ensures ReplaceAll(s, pat, rep) != s
    decreases |s|
  {
    var r := ReplaceAll(s, pat, rep);
    if pat == [] {
      assert |r| > |s|;
    } else {
      var i :| 0 <= i <= |s| && OccursAt(s, pat, i);
      if s[..|pat|] == pat {
        var rest := s[|pat|..];
        assert r == rep + ReplaceAll(rest, pat, rep);
        ReplaceLength(rest, pat, rep);
        if |rep| == |pat| {
          assert r[..|rep|] == rep;
        }
      } else {
        var j := i - 1;
        assert OccursAt(s[1..], pat, j) by {
          assert s[1..][j..j + |pat|] == s[i..i + |pat|];
        }
        ReplacePresent(s[1..], pat, rep);
        assert r[1..] == ReplaceAll(s[1..], pat, rep);
      }
    }
  }

  /** `s.replace(pat, rep) == s` exactly when nothing is replaced or the
      replacement is the pattern itself. */
  lemma ReplaceUnchangedIff(s: string, pat: string, rep: string)
    ensures ReplaceAll(s, pat, rep) == s <==> (rep == pat || !Occurs(s, pat))
  {
    if rep == pat {
      ReplaceBySelf(s, pat);
    } else if pat == [] {
      assert OccursAt(s, pat, 0);
      ReplacePresent(s, pat, rep);
    } else if Occurs(s, pat) {
      ReplacePresent(s, pat, rep);
    } else {
      ReplaceAbsent(s, pat, rep);
    }
  }

  /** A string that begins with the pattern, with no further occurrence after
      it, gets exactly that prefix rewritten. */
  lemma ReplacePrefix(pat: string, rest: string, rep: string)
    requires pat != [] && !Occurs(rest, pat)
    ensures ReplaceAll(pat + rest, pat, rep) == rep + rest
  {
    var s := pat + rest;
    assert s[..|pat|] == pat;
    assert s[|pat|..] == rest;
    ReplaceAbsent(rest, pat, rep);
  }
}

=== FILE: reference_server.dfy ===
/**
  A reference Notify API: an in-memory manifest store, one reading of what
  the handle's docstrings say the service does.  A create makes an OPEN
  manifest that keeps the parameters it was sent, a fetch returns what is
  stored, a notify seals the manifest, an entry post appends to its entry
  list, and an entry put adds or overwrites entries by `sourceFile`.

  The store is the replay of the call log, so `Serve` is an `Api` like any
  other.  The lemmas here state what the handle's operations achieve against
  it: the create-then-fetch round trip, the notify lifecycle, and the entry
  round trips.
 */
module ReferenceServer {
  import opened Common
  import opened PyStr
  import opened NotifyApi
  import opened ManifestHandle
  import opened Notifier

  /** One manifest as the server keeps it, with the source entity it
      belongs to and its entry list. */
  datatype Stored = Stored(system: string, entity: string, record: Record, entries: seq<Object>)

  // ---------------------------------------------------------------------
  // Reading a create request
  // ---------------------------------------------------------------------

  function StrField(body: Object, key: string): (v: Option<string>)
    ensures v.Some? <==> key in body && body[key].Str?
  {
    if key in body && body[key].Str? then Some(body[key].s) else None
  }

  function IntField(body: Object, key: string): (v: Option<int>)
    ensures v.Some? <==> key in body && body[key].Int?
  {
    if key in body && body[key].Int? then Some(body[key].i) else None
  }

  function BoolField(body: Object, key: string): (v: Option<bool>)
    ensures v.Some? <==> key in body && body[key].Bool?
  {
    if key in body && body[key].Bool? then Some(body[key].b) else None
  }

  function ListField(body: Object, key: string): (v: Option<seq<string>>)
    ensures v.Some? <==> key in body && body[key].StrList?
  {
    if key in body && body[key].StrList? then Some(body[key].items) else None
  }

  /** The manifest a create request at log position `at` makes: the id and
      both time stamps come from the position, so ids never repeat; the
      state is OPEN; every other field is read from the request body. */
  function Created(at: nat, body: Body): (r: Record)
    ensures r.id == Decimal(at) && r.state == "OPEN"
  {
    var f := if body.Obj? then body.fields else map[];
    Record(Decimal(at), "OPEN", Decimal(at), Decimal(at), StrField(f, "format").GetOr(""),
           IntField(f, "batch"), ListField(f, "columns"), StrField(f, "compression"),
           StrField(f, "delim"), BoolField(f, "fullscanned"), IntField(f, "skiph"))
  }

  // ---------------------------------------------------------------------
  // The store
  // ---------------------------------------------------------------------

  /** `s` is the manifest `id` of the target's source entity. */
  predicate Holds(s: Stored, t: Target, id: string) {
    s.system == t.system && s.entity == t.entity && s.record.id == id
  }

  /** The store with `f` applied to the manifests `id` of the target's
      source entity, and every other manifest as it was. */
  function Update(store: seq<Stored>, t: Target, id: string, f: Stored -> Stored): (r: seq<Stored>)
    ensures |r| == |store|
    ensures forall i :: 0 <= i < |r| ==> r[i] == if Holds(store[i], t, id) then f(store[i]) else store[i]
  {
    seq(|store|, i requires 0 <= i < |store| => if Holds(store[i], t, id) then f(store[i]) else store[i])
  }

  /** A notify at position `at` seals the manifest. */
  function Seal(at: nat): Stored -> Stored {
    (s: Stored) => s.(record := s.record.(state := "NOTIFIED", modified := Decimal(at)))
  }

  function AppendEntry(e: Object): Stored -> Stored {
    (s: Stored) => s.(entries := s.entries + [e])
  }

  /** A put overwrites, entry by entry, the stored entries with the same
      `sourceFile` and appends the entries whose `sourceFile` is new. */
  function PutEntries(es: seq<Object>): Stored -> Stored {
    (s: Stored) => s.(entries := PutAll(s.entries, es))
  }

  // ---------------------------------------------------------------------
  // The entry list under a put
  // ---------------------------------------------------------------------

  /** The key the service stores an entry under: its `sourceFile`. */
  function EntryKey(e: Object): Option<Value> {
    if "sourceFile" in e then Some(e["sourceFile"]) else None
  }

  /** Whether some entry of `es` carries the key of `o`. */
  predicate Named(es: seq<Object>, o: Object) {
    EntryKey(o).Some? && exists j :: 0 <= j < |es| && EntryKey(es[j]) == EntryKey(o)
  }

  /** One put entry: it takes the place of every stored entry with its key,
      or is appended when none has it (or it has no key). */
  function PutOne(entries: seq<Object>, e: Object): (r: seq<Object>)
    ensures Named(entries, e) ==> |r| == |entries|
    ensures Named(entries, e) ==>
              forall i :: 0 <= i < |r| ==> r[i] == if EntryKey(entries[i]) == EntryKey(e) then e else entries[i]
    ensures !Named(entries, e) ==> r == entries + [e]
  {
    if Named(entries, e) then
      seq(|entries|, i requires 0 <= i < |entries| => if EntryKey(entries[i]) == EntryKey(e) then e else entries[i])
    else entries + [e]
  }

  /** The put entries in order, each one over the list the earlier ones left. */
  function PutAll(entries: seq<Object>, es: seq<Object>): seq<Object>
    decreases |es|
  {
    if es == [] then entries else PutOne(PutAll(entries, es[..|es| - 1]), es[|es| - 1])
  }

  /** Whether `es[j]` is the last entry of `es` with its key. */
  predicate LastOfKey(es: seq<Object>, j: int)
    requires 0 <= j < |es|
  {
    !Named(es[j + 1..], es[j])
  }

  /** What a put promises of the list it leaves: every stored entry it does
      not name survives, every put entry that no later one overrides is
      there, nothing else is, and an entry whose `sourceFile` the put names
      is one of the put entries: the stored one it named is overwritten. */
  predicate Upserted(before: seq<Object>, es: seq<Object>, after: seq<Object>) {
    && (forall o :: o in before && !Named(es, o) ==> o in after)
    && (forall j :: 0 <= j < |es| && LastOfKey(es, j) ==> es[j] in after)
    && (forall o :: o in after ==> o in before || o in es)
    && (forall o :: o in after && Named(es, o) ==> o in es)
  }

  lemma PutOneKeeps(entries: seq<Object>, e: Object, o: Object)
    requires o in entries && (EntryKey(e).None? || EntryKey(o) != EntryKey(e))
    ensures o in PutOne(entries, e)
  {
    if Named(entries, e) {
      var i :| 0 <= i < |entries| && entries[i] == o;
      assert PutOne(entries, e)[i] == o;
    }
  }

  lemma PutOneHolds(entries: seq<Object>, e: Object)
    ensures e in PutOne(entries, e)
    ensures forall o :: o in PutOne(entries, e) ==> o in entries || o == e
    ensures forall o :: o in PutOne(entries, e) && o != e ==>
              o in entries && (EntryKey(e).None? || EntryKey(o) != EntryKey(e))
  {
    var r := PutOne(entries, e);
    if Named(entries, e) {
      var j :| 0 <= j < |entries| && EntryKey(entries[j]) == EntryKey(e);
      assert r[j] == e;
      forall o | o in r && o != e ensures o in entries && EntryKey(o) != EntryKey(e) {
        var i :| 0 <= i < |r| && r[i] == o;
        assert r[i] == entries[i] && EntryKey(entries[i]) != EntryKey(e);
      }
    }
  }

  lemma NamedWithin(es: seq<Object>, n: nat, o: Object)
    requires n <= |es|
    ensures Named(es[..n], o) ==> Named(es, o)
  {
    if Named(es[..n], o) {
      var j :| 0 <= j < n && EntryKey(es[..n][j]) == EntryKey(o);
      assert EntryKey(es[j]) == EntryKey(o);
    }
  }

  lemma NamedInit(es: seq<Object>, o: Object)
    requires es != []
    ensures Named(es, o) && EntryKey(es[|es| - 1]) != EntryKey(o) ==> Named(es[..|es| - 1], o)
  {
    if Named(es, o) && EntryKey(es[|es| - 1]) != EntryKey(o) {
      var j :| 0 <= j < |es| && EntryKey(es[j]) == EntryKey(o);
      assert es[..|es| - 1][j] == es[j];
    }
  }

  lemma NamedAt(es: seq<Object>, j: nat, o: Object)
    requires j < |es|
    ensures EntryKey(o).Some? && EntryKey(es[j]) == EntryKey(o) ==> Named(es, o)
  {
  }

  /** A put keeps its promises on every stored list. */
  lemma {:induction false} PutAllUpserts(before: seq<Object>, es: seq<Object>)
    ensures Upserted(before, es, PutAll(before, es))
    decreases |es|
  {
    if es != [] {
      var init, e := es[..|es| - 1], es[|es| - 1];
      var mid := PutAll(before, init);
      var after := PutAll(before, es);
      assert after == PutOne(mid, e);
      PutAllUpserts(before, init);
      PutOneHolds(mid, e);
      forall o | o in before && !Named(es, o) ensures o in after {
        NamedWithin(es, |es| - 1, o);
        NamedAt(es, |es| - 1, o);
        PutOneKeeps(mid, e, o);
      }
      forall j | 0 <= j < |es| && LastOfKey(es, j) ensures es[j] in after {
        if j < |es| - 1 {
          var rest := es[j + 1..];
          assert init[j + 1..] == rest[..|rest| - 1];
          NamedWithin(rest, |rest| - 1, es[j]);
          NamedAt(rest, |rest| - 1, es[j]);
          PutOneKeeps(mid, e, es[j]);
        }
      }
      forall o | o in after ensures o in before || o in es {
        if o != e {
          assert o in mid;
          if o in init {
            var i :| 0 <= i < |init| && init[i] == o;
            assert es[i] == o;
          }
        }
      }
      forall o | o in after && Named(es, o) ensures o in es {
        if o != e {
          NamedInit(es, o);
          var i :| 0 <= i < |init| && init[i] == o;
          assert es[i] == o;
        }
      }
    }
  }

  /** The effect on the store of the call at position `at`; reads change
      nothing. */
  function Apply(store: seq<Stored>, at: nat, c: Call): seq<Stored> {
    var t := c.target;
    match (c.verb, t.resource, c.body)
    case (Post, Collection(None), _) => store + [Stored(t.system, t.entity, Created(at, c.body), [])]
    case (Post, ItemNotify(id), _) => Update(store, t, id, Seal(at))
    case (Post, ItemEntries(id), Obj(e)) => Update(store, t, id, AppendEntry(e))
    case (Put, ItemEntries(id), ObjList(es)) => Update(store, t, id, PutEntries(es))
    case _ => store
  }

  /** The store after the calls of the log, in order. */
  function Replay(log: seq<Call>): seq<Stored> {
    if log == [] then []
    else Apply(Replay(log[..|log| - 1]), |log| - 1, log[|log| - 1])
  }

  /** The manifest `id` of the target's source entity, if there is one. */
  function Find(store: seq<Stored>, t: Target, id: string): (r: Option<Stored>)
    ensures r.Some? ==> Holds(r.value, t, id)
    ensures r.None? <==> forall i :: 0 <= i < |store| ==> !Holds(store[i], t, id)
  {
    if store == [] then None
    else if Holds(store[|store| - 1], t, id) then Some(store[|store| - 1])
    else Find(store[..|store| - 1], t, id)
  }

  /** The manifests of the target's source entity, in the state asked for
      when one is, in the order they were created. */
  function Listed(store: seq<Stored>, t: Target, state: Option<string>): seq<Record> {
    if store == [] then []
    else
      var s := store[|store| - 1];
      Listed(store[..|store| - 1], t, state) +
        (if s.system == t.system && s.entity == t.entity && (state.None? || s.record.state == state.value)
         then [s.record] else [])
  }

  /** The reference service. */
  function Serve(log: seq<Call>, c: Call): Response {
    var store := Replay(log);
    var t := c.target;
    match (c.verb, t.resource)
    case (Post, Collection(None)) => Reply(ManifestObject(Created(|log|, c.body)))
    case (Get, Collection(state)) => Reply(ManifestArray(Listed(store, t, state)))
    case (Get, Item(id)) =>
      (match Find(store, t, id)
       case Some(s) => Reply(ManifestObject(s.record))
       case None => Reply(OtherJson))
    case (Get, ItemEntries(id)) =>
      (match Find(store, t, id)
       case Some(s) => Reply(EntryArray(s.entries))
       case None => Reply(OtherJson))
    case _ => Reply(OtherJson)
  }

  // ---------------------------------------------------------------------
  // The store's own properties
  // ---------------------------------------------------------------------

  /** The reference service answers a fetch with the manifest asked for. */
  lemma ServeEchoesIds()
    ensures EchoesIds(Serve)
  {
    forall log: seq<Call>, c: Call |
      c.verb == Get && c.target.resource.Item? && Serve(log, c).Reply? && Serve(log, c).payload.ManifestObject?
      ensures Serve(log, c).payload.record.id == c.target.resource.id
    {
      var f := Find(Replay(log), c.target, c.target.resource.id);
      assert f.Some?;
    }
  }

  /** Finding in an updated store finds the update of what was found. */
  lemma {:induction false} FindUpdate(store: seq<Stored>, t: Target, id: string, f: Stored -> Stored)
    requires forall s: Stored :: Holds(s, t, id) ==> Holds(f(s), t, id)
    ensures var found := Find(store, t, id);
      Find(Update(store, t, id, f), t, id) == if found.Some? then Some(f(found.value)) else None
    decreases |store|
  {
    if store != [] {
      var init := store[..|store| - 1];
      assert Update(store, t, id, f)[..|store| - 1] == Update(init, t, id, f);
      FindUpdate(init, t, id, f);
    }
  }

  /** Finding and updating read only the source entity of the target. */
  lemma {:induction false} FindEndpoint(store: seq<Stored>, t: Target, t': Target, id: string)
    requires t.system == t'.system && t.entity == t'.entity
    ensures Find(store, t, id) == Find(store, t', id)
    decreases |store|
  {
    if store != [] {
      FindEndpoint(store[..|store| - 1], t, t', id);
    }
  }

  lemma UpdateEndpoint(store: seq<Stored>, t: Target, t': Target, id: string, f: Stored -> Stored)
    requires t.system == t'.system && t.entity == t'.entity
    ensures Update(store, t, id, f) == Update(store, t', id, f)
  {
  }

  /** A newly created manifest is the one found under its id. */
  lemma FindCreated(store: seq<Stored>, s: Stored, t: Target)
    requires s.system == t.system && s.entity == t.entity
    ensures Find(store + [s], t, s.record.id) == Some(s)
  {
  }

  /** A newly created OPEN manifest is the last open one listed. */
  lemma ListedCreated(store: seq<Stored>, s: Stored, t: Target)
    requires s.system == t.system && s.entity == t.entity && s.record.state == "OPEN"
    ensures Listed(store + [s], t, Some("OPEN")) == Listed(store, t, Some("OPEN")) + [s.record]
  {
    assert (store + [s])[..|store|] == store;
  }

  // ---------------------------------------------------------------------
  // The handle against the reference service
  // ---------------------------------------------------------------------

  /** `create` against the reference service: it completes, the handle
      holds the new id and state OPEN, and every parameter it was created
      with is kept. */
  lemma CreateKeepsParameters(m: Manifest, log: seq<Call>)
    ensures var e := Create(Serve, m, log);
      && e.outcome == Done
      && e.manifest.id == Some(Decimal(|log|)) && e.manifest.state == Some("OPEN")
      && e.manifest.created == Some(Decimal(|log|)) && e.manifest.modified == Some(Decimal(|log|))
      && e.manifest.format == m.format && e.manifest.batch == m.batch && e.manifest.columns == m.columns
      && e.manifest.compression == m.compression && e.manifest.delim == m.delim
      && e.manifest.fullscanned == m.fullscanned && e.manifest.skiph == m.skiph
      && SameEndpoint(e.manifest, m) && e.manifest.entries == m.entries
  {
    var r := Created(|log|, Obj(CreateBody(m)));
    assert Serve(log, CreateCall(m)) == Reply(ManifestObject(r));
    CreatedFromBody(m, |log|);
  }

  /** The server reads back every field the create body carries. */
  lemma CreatedFromBody(m: Manifest, at: nat)
    ensures var r := Created(at, Obj(CreateBody(m)));
      && r.format == m.format && r.batch == m.batch && r.columns == m.columns
      && r.compression == m.compression && r.delim == m.delim
      && r.fullscanned == m.fullscanned && r.skiph == m.skiph
  {
    var body := CreateBody(m);
    assert StrField(body, "format") == Some(m.format);
    assert IntField(body, "batch") == m.batch;
    assert ListField(body, "columns") == m.columns;
    assert StrField(body, "compression") == m.compression;
    assert StrField(body, "delim") == m.delim;
    assert BoolField(body, "fullscanned") == m.fullscanned;
    assert IntField(body, "skiph") == m.skiph;
  }

  /** Create, then fetch by the handle's id: the fetch completes and leaves
      the handle exactly as the create did. */
  lemma CreateThenFetch(m: Manifest, log: seq<Call>)
    ensures var c := Create(Serve, m, log);
      var f := FetchManifest(Serve, c.manifest, c.log, None);
      f.outcome == Done && f.manifest == c.manifest
  {
    var c := Create(Serve, m, log);
    CreateKeepsParameters(m, log);
    var s := Stored(m.system, m.entity, Created(|log|, Obj(CreateBody(m))), []);
    assert c.log[..|c.log| - 1] == log;
    assert Replay(c.log) == Replay(log) + [s];
    FindCreated(Replay(log), s, c.manifest.At(Item(Decimal(|log|))));
  }

  /** The round trip of the documented example: a csv manifest with a comma
      delimiter, created and then fetched, is OPEN, has a server-assigned
      id and time stamps, and keeps its format and delimiter. */
  lemma CreateThenFetchExample(base: string, system: string, entity: string, log: seq<Call>)
    ensures var m := New(base, system, entity, "csv").(delim := Some(","));
      var c := Create(Serve, m, log);
      var f := FetchManifest(Serve, c.manifest, c.log, None);
      && f.outcome == Done
      && f.manifest.id == Some(Decimal(|log|)) && f.manifest.state == Some("OPEN")
      && f.manifest.created.Some? && f.manifest.modified.Some?
      && f.manifest.format == "csv" && f.manifest.delim == Some(",")
  {
    var m := New(base, system, entity, "csv").(delim := Some(","));
    CreateKeepsParameters(m, log);
    CreateThenFetch(m, log);
  }

  /** Notify, then fetch: a stored manifest is NOTIFIED afterwards, and
      keeps its id. */
  lemma NotifyThenFetch(m: Manifest, log: seq<Call>)
    requires m.id.Some? && Find(Replay(log), m.At(Item(m.id.value)), m.id.value).Some?
    ensures var n := Notify(Serve, m, log, None);
      var f := FetchManifest(Serve, n.manifest, n.log, None);
      f.outcome == Done && f.manifest.state == Some("NOTIFIED") && f.manifest.id == m.id
  {
    var id := m.id.value;
    var t := m.At(Item(id));
    var n := Notify(Serve, m, log, None);
    assert n.manifest == m && n.log == log + [NotifyCall(m, id)];
    ReplayWrite(log, NotifyCall(m, id));
    StoredAfterWrite(m, log, NotifyCall(m, id), Seal(|log|));
    ServeItem(m, n.log, id);
  }

  /** `add_entry` to a stored manifest, then `fetch_manifest_entries`: the
      cached entries are the old ones followed by the new entry. */
  lemma AddEntryThenFetchEntries(m: Manifest, log: seq<Call>, sourceFile: string, batch: Option<int>,
                                 contentLength: Option<int>)
    requires m.id.Some? && Find(Replay(log), m.At(Item(m.id.value)), m.id.value).Some?
    ensures var before := Find(Replay(log), m.At(Item(m.id.value)), m.id.value).value.entries;
      var a := AddEntry(Serve, m, log, sourceFile, batch, contentLength);
      var f := FetchEntries(Serve, a.manifest, a.log);
      && a.outcome == Done && f.outcome == Done
      && f.manifest.entries == Some(EntryArray(before + [EntryBody(sourceFile, batch, contentLength)]))
  {
    var id := m.id.value;
    var body := EntryBody(sourceFile, batch, contentLength);
    var a := AddEntry(Serve, m, log, sourceFile, batch, contentLength);
    ServeReplies(log, EntryPostCall(m, id, body));
    assert a.manifest == m && a.log == log + [EntryPostCall(m, id, body)];
    ReplayWrite(log, EntryPostCall(m, id, body));
    StoredAfterWrite(m, log, EntryPostCall(m, id, body), AppendEntry(body));
    ServeEntries(m, a.log, id);
  }

  /** `add_entries` to a stored manifest, then `fetch_manifest_entries`: the
      cached entries are the stored ones with the put entries added or
      overwritten by `sourceFile`. */
  lemma AddEntriesThenFetchEntries(m: Manifest, log: seq<Call>, entries: seq<Object>)
    requires m.id.Some? && Find(Replay(log), m.At(Item(m.id.value)), m.id.value).Some?
    ensures var before := Find(Replay(log), m.At(Item(m.id.value)), m.id.value).value.entries;
      var a := AddEntries(Serve, m, log, entries);
      var f := FetchEntries(Serve, a.manifest, a.log);
      && a.outcome == Done && f.outcome == Done
      && f.manifest.entries.Some? && f.manifest.entries.value.EntryArray?
      && Upserted(before, entries, f.manifest.entries.value.entries)
  {
    var id := m.id.value;
    var before := Find(Replay(log), m.At(Item(id)), id).value.entries;
    var a := AddEntries(Serve, m, log, entries);
    ServeReplies(log, EntriesPutCall(m, id, entries));
    assert a.manifest == m && a.log == log + [EntriesPutCall(m, id, entries)];
    ReplayWrite(log, EntriesPutCall(m, id, entries));
    StoredAfterWrite(m, log, EntriesPutCall(m, id, entries), PutEntries(entries));
    ServeEntries(m, a.log, id);
    PutAllUpserts(before, entries);
  }

  /** The reference service answers every call. */
  lemma ServeReplies(log: seq<Call>, c: Call)
    ensures Serve(log, c).Reply?
  {
  }

  /** The store after one more write to a manifest's entries or notify
      resource. */
  lemma ReplayWrite(log: seq<Call>, c: Call)
    ensures var t := c.target;
      && (c.verb == Post && t.resource.ItemEntries? && c.body.Obj? ==>
            Replay(log + [c]) == Update(Replay(log), t, t.resource.id, AppendEntry(c.body.fields)))
      && (c.verb == Put && t.resource.ItemEntries? && c.body.ObjList? ==>
            Replay(log + [c]) == Update(Replay(log), t, t.resource.id, PutEntries(c.body.objects)))
      && (c.verb == Post && t.resource.ItemNotify? ==>
            Replay(log + [c]) == Update(Replay(log), t, t.resource.id, Seal(|log|)))
  {
    ReplaySnoc(log, c);
    ApplyWrite(Replay(log), |log|, c);
  }

  lemma ReplaySnoc(log: seq<Call>, c: Call)
    ensures Replay(log + [c]) == Apply(Replay(log), |log|, c)
  {
    assert (log + [c])[..|log|] == log;
  }

  lemma ApplyWrite(store: seq<Stored>, at: nat, c: Call)
    ensures var t := c.target;
      && (c.verb == Post && t.resource.ItemEntries? && c.body.Obj? ==>
            Apply(store, at, c) == Update(store, t, t.resource.id, AppendEntry(c.body.fields)))
      && (c.verb == Put && t.resource.ItemEntries? && c.body.ObjList? ==>
            Apply(store, at, c) == Update(store, t, t.resource.id, PutEntries(c.body.objects)))
      && (c.verb == Post && t.resource.ItemNotify? ==>
            Apply(store, at, c) == Update(store, t, t.resource.id, Seal(at)))
  {
  }

  /** A write to a stored manifest of the handle's source entity: the one
      found afterwards under its id is the update of the one found before. */
  lemma StoredAfterWrite(m: Manifest, log: seq<Call>, c: Call, f: Stored -> Stored)
    requires m.id.Some? && c.target.system == m.system && c.target.entity == m.entity
    requires Replay(log + [c]) == Update(Replay(log), c.target, m.id.value, f)
    requires forall s: Stored :: Holds(s, c.target, m.id.value) ==> Holds(f(s), c.target, m.id.value)
    requires Find(Replay(log), m.At(Item(m.id.value)), m.id.value).Some?
    ensures Find(Replay(log + [c]), m.At(Item(m.id.value)), m.id.value)
         == Some(f(Find(Replay(log), m.At(Item(m.id.value)), m.id.value).value))
  {
    var id := m.id.value;
    var t := m.At(Item(id));
    UpdateEndpoint(Replay(log), c.target, t, id, f);
    FindUpdate(Replay(log), t, id, f);
  }

  /** The reference service answers a fetch with the stored manifest. */
  lemma ServeItem(m: Manifest, log: seq<Call>, id: string)
    requires Find(Replay(log), m.At(Item(id)), id).Some?
    ensures Serve(log, FetchCall(m, id)) == Reply(ManifestObject(Find(Replay(log), m.At(Item(id)), id).value.record))
  {
  }

  /** The reference service lists the entries of a stored manifest. */
  lemma ServeEntries(m: Manifest, log: seq<Call>, id: string)
    requires Find(Replay(log), m.At(Item(id)), id).Some?
    ensures Serve(log, EntriesGetCall(m, id)) == Reply(EntryArray(Find(Replay(log), m.At(Item(id)), id).value.entries))
  {
    FindEndpoint(Replay(log), m.At(ItemEntries(id)), m.At(Item(id)), id);
  }

  /** After a create, the search for open manifests of the same source
      entity ends with the new manifest, so a later `add_to_manifest`
      reuses it. */
  lemma CreateThenSearchOpen(m: Manifest, log: seq<Call>, a: Attributes)
    requires a.system == m.system && a.entity == m.entity
    ensures var c := Create(Serve, m, log);
      var s := SearchOpen(Serve, c.log, m.base, a);
      && s.result.Success? && s.result.value != []
      && s.result.value[|s.result.value| - 1] == Decimal(|log|)
  {
    var c := Create(Serve, m, log);
    var st := Stored(m.system, m.entity, Created(|log|, Obj(CreateBody(m))), []);
    assert c.log[..|c.log| - 1] == log;
    assert Replay(c.log) == Replay(log) + [st];
    var t := OpenCall(m.base, a).target;
    ListedCreated(Replay(log), st, t);
  }
}
